=== FILE: README.md ===
# Device editor and rendering parameters (Sitecore.Support.93215)

A Dafny model of two parts of the patched layout-details dialog.

- **The device editor (`DeviceEditorForm`).** It edits one device of a
  layout definition: an ordered list of renderings, a list of placeholder
  settings and a layout. It also keeps a rendering selection (`-1` for none)
  and a placeholder selection (`""` for none). Every handler is a pure step
  from one editor state to the next, together with the effect the page
  shows: an alert, a dialog, the properties dialog or closing.
- **The rendering-parameters dialog (`RenderingParameters`).** It turns a
  rendering's attributes and its query-string parameters into the list of
  fields the dialog edits, and writes the edited fields back. Five field
  names are backed by attributes of the rendering: placeholder, data source,
  caching, personalization and tests. The eight caching attributes travel
  as one `0|1|…` field. Any other field is a parameter. Parameters that no
  template field declares travel together as "Additional Parameters".

Modules:

| file | module | contents |
|---|---|---|
| optional.dfy | `Optional` | `Option`, `Result` |
| text.dfy | `Text` | `Split`/`Join` with their round trips, ASCII lower-casing, `ReplaceAll` |
| sequences.dfy | `Sequences` | `RemoveAt`/`InsertAt` as `ArrayList` performs them |
| querystring.dfy | `QueryString` | parameters as ordered pairs; `Set`, `Delete`, `Merge`; the `key=value&…` text and its parser |
| definitions.dfy | `Definitions` | rendering, placeholder, device, item and dialog arguments |
| caching.dfy | `Caching` | `GetCaching`/`SetCaching` |
| renderingparameters.dfy | `RenderingParameters` | field routing, `GetFields`, `Save`, `Show` |
| deviceeditor.dfy | `DeviceEditor` | the editor's handlers |

Lookups in the content database are function-valued parameters:

- the parameters template of a rendering item;
- the id or URI of an item;
- the parsers of the placeholder-settings and set-test dialog results;
- whether a rendering is personalized.

A new placeholder's unique id (`ID.NewID`) is also a parameter. When the
source would throw an exception, the model either states a precondition or
returns a `Failure`. It uses a precondition for an index outside the list
and for a dialog result with fewer than three parts. It uses `Failure` for
the caching format assertion, which aborts the save before anything is
stored.

`RemovePlaceholder` keeps the placeholder selection after it removes the
placeholder: the code never clears it, and the model does the same.

`SortDown`, `SortUp` and `RemovePlaceholder` call `ArrayList.Remove(object)`,
which removes the first entry equal to the object the handler fetched at the
selected position. The model removes at that position. The two agree because
`RenderingDefinition` and `PlaceholderDefinition` entries compare by
reference, so no earlier entry equals the selected one.

A rendering that names an item is looked up in the language of the content
item the editor was opened on (RenderingParameters.cs:155 and :358). With no
content item that lookup throws, so `Show` and `Edit` return a `Failure` for
such a rendering.

## Model

| member | source | states |
|---|---|---|
| Caching.GetCaching | src/Sitecore.Support.93215/RenderingParameters.cs:265-269 | The caching field is always eight `\|`-separated `0`/`1` tokens. Token i is `1` exactly when attribute i (Cachable, ClearOnIndexUpdate, VaryByData, VaryByDevice, VaryByLogin, VaryByParameters, VaryByQueryString, VaryByUser) is `"1"`. |
| Caching.SetCaching | src/Sitecore.Support.93215/RenderingParameters.cs:433-451 | Succeeds exactly when the value has eight `\|`-separated parts, an empty value standing for all off. Each attribute becomes `"1"` on token `1`, and otherwise `"0"` if it was set and absent if it was absent. |
| Caching.SetThenGet | src/Sitecore.Support.93215/RenderingParameters.cs:433-451 | Writing any well-formed caching value and reading it back gives the same value, whatever the attributes held. |
| Caching.EmptyMeansAllOff | src/Sitecore.Support.93215/RenderingParameters.cs:437-440 | An empty caching value succeeds and reads back as all off. |
| Caching.WriteBackIsIdempotent | src/Sitecore.Support.93215/RenderingParameters.cs:433-451 | Writing back the value just read keeps that value and leaves every attribute absent, `"0"` or `"1"`. A second write-back changes nothing. |
| QueryString.Set | src/Sitecore.Support.93215/RenderingParameters.cs:514 | Setting a parameter gives it the new value and leaves every other key as it was. It keeps keys distinct. |
| QueryString.Delete | src/Sitecore.Support.93215/RenderingParameters.cs:312 | Removing a key leaves it absent and every other key as it was. |
| QueryString.Merge | src/Sitecore.Support.93215/RenderingParameters.cs:504-509 | After appending pairs, a key they hold takes their value and any other key keeps its old value. A key is present exactly when either side has it. |
| QueryString.NonEmptyKeys | src/Sitecore.Support.93215/RenderingParameters.cs:334-339 | Dropping empty keys keeps every other key's value and leaves no empty key. |
| QueryString.ParseFormat | src/Sitecore.Support.93215/RenderingParameters.cs:581 | Parameters written as `key=value&…` text read back as the same pairs in the same order, when no key or value needs escaping. |
| RenderingParameters.GetParameters | src/Sitecore.Support.93215/RenderingParameters.cs:328-341 | The parameter map has no empty key and no repeated key. It holds exactly the non-empty keys of the text, with their values when no key repeats. Keys are compared exactly (see "## Left out"). |
| RenderingParameters.GetValue | src/Sitecore.Support.93215/RenderingParameters.cs:398-422 | Each attribute-backed field reads its own attribute: placeholder, data source, the packed caching flags, the personalization conditions or the test. An absent attribute reads as the empty string. Any other field is the parameter of exactly its name, absent when there is none. |
| RenderingParameters.AttributeFieldsIgnoreCaseAndParameters | src/Sitecore.Support.93215/RenderingParameters.cs:403-415 | An attribute-backed field reads the same under any letter case of its name and for any parameter map. |
| RenderingParameters.Describe | src/Sitecore.Support.93215/RenderingParameters.cs:303-308 | A dialog field carries the current value when there is one. Otherwise it carries the template's standard value, flagged as standard exactly in that case. |
| RenderingParameters.AcceptedFields | src/Sitecore.Support.93215/RenderingParameters.cs:303 | A template field is kept exactly when the dialog accepts it, and the kept fields are no more than the template has. |
| RenderingParameters.Descriptors | src/Sitecore.Support.93215/RenderingParameters.cs:298-314 | The dialog lists one field per accepted template field, in template order: field j describes the j-th accepted field. None of them is "Additional Parameters". |
| RenderingParameters.DescriptorsMembership | src/Sitecore.Support.93215/RenderingParameters.cs:298-314 | Every dialog field describes an accepted template field, and every accepted template field is described. |
| RenderingParameters.Leftover | src/Sitecore.Support.93215/RenderingParameters.cs:297-313 | The left-over map has no key named by an accepted field and keeps every other key's value. |
| RenderingParameters.AddAdditionalParameters | src/Sitecore.Support.93215/RenderingParameters.cs:235-254 | The "Additional Parameters" field is appended as the last field exactly when the template has it or something is left over. The fields before it are kept. |
| RenderingParameters.GetFields | src/Sitecore.Support.93215/RenderingParameters.cs:283-317 | There are no fields without a parameters template. Otherwise the template fields come first, followed by "Additional Parameters" exactly when needed. |
| RenderingParameters.AdditionalParametersCarryLeftover | src/Sitecore.Support.93215/RenderingParameters.cs:241-253 | The "Additional Parameters" text parses back to exactly the left-over parameters. |
| RenderingParameters.SetValue | src/Sitecore.Support.93215/RenderingParameters.cs:468-518 | Attribute-backed fields never touch the outgoing parameters. Parameter fields never touch the rendering. Placeholder, data source and personalization set exactly their attribute to the value. Tests stores the id of the item the value names, or the value itself when it names none. Caching stores the flags SetCaching computes. "Additional parameters" merges its parsed pairs. A parameter holding its standard value is not written; otherwise exactly that key changes. Only the caching field can fail, and only on a value that is not eight parts. |
| RenderingParameters.SetValueThenGetValue | src/Sitecore.Support.93215/RenderingParameters.cs:468-518 | Reading a field right after writing it gives back the written value. This covers placeholder, data source, personalization, a well-formed caching value, a test naming no item, and a non-standard parameter. |
| RenderingParameters.SetValueLeavesOtherFields | src/Sitecore.Support.93215/RenderingParameters.cs:473-517 | Writing one field leaves the value of every field of another route, and of every other parameter name, unchanged. |
| RenderingParameters.SaveFields | src/Sitecore.Support.93215/RenderingParameters.cs:575-580 | Writing all fields succeeds exactly when every caching field has eight parts. A malformed caching value stops the writes (the `Assert.IsTrue` at :442). It never changes the rendering item or its stored parameter text. |
| RenderingParameters.Save | src/Sitecore.Support.93215/RenderingParameters.cs:562-586 | Without a parameters template nothing changes. Otherwise the save succeeds exactly when writing the fields does. The saved rendering is the one the field writes produced, carrying their attribute changes, with its parameters replaced as a whole by the collected ones. |
| RenderingParameters.SaveWritesAttribute | src/Sitecore.Support.93215/RenderingParameters.cs:476-504 | A save of one attribute-backed field, flagged standard or not, stores it in the rendering, and it reads back as written. For caching this needs a well-formed value, and for tests a value naming no item. |
| RenderingParameters.SaveSuppressesStandardValue | src/Sitecore.Support.93215/RenderingParameters.cs:577-581 | A parameter field is stored by the save unless it was flagged standard and still equals the template's standard value. |
| RenderingParameters.SaveAfterGetFieldsKeepsParameters | src/Sitecore.Support.93215/RenderingParameters.cs:562-586 | Opening the dialog and saving it unchanged keeps every parameter value. The exception is a parameter named like an accepted attribute-backed field: the dialog showed the attribute instead, so the parameter is dropped. Two conditions apply: the template's field names are distinct, and no accepted field's name is a letter-case variant of "additional parameters" (see the next row). |
| RenderingParameters.CaseVariantAdditionalFieldDropsParameter | src/Sitecore.Support.93215/RenderingParameters.cs:505-509 | Take a template field named like "Additional Parameters" in another letter case. The dialog's exact-name filter shows it, but the save's case-insensitive merge branch writes it back. A parameter it showed with an empty value is then lost. |
| RenderingParameters.CustomParameters | src/Sitecore.Support.93215/RenderingParameters.cs:200-221 | The warning is present when the rendering is personalized or under a test, and the test warning takes precedence. The rendering and content-item URIs are present exactly when they exist, and hold those URIs. No other key is set. |
| RenderingParameters.Show | src/Sitecore.Support.93215/RenderingParameters.cs:133-193 | A post-back without a result is done and changes nothing, and so is a first call without a selection. A first call with a selection opens the dialog on GetFields, with CustomParameters as the dialog's parameters, so the test warning wins over the personalization one. A post-back with a result saves the returned fields into the selected rendering. It fails exactly when that save fails, and is otherwise done. Both phases fail when the rendering names an item and there is no content item (:155, :358). A dialog is opened exactly when the edit is not done. Only the selected rendering can change. |
| RenderingParameters.ShowThenPostBackKeepsParameters | src/Sitecore.Support.93215/RenderingParameters.cs:133-193 | Suppose the dialog posts back exactly the fields it was opened with. Then the save succeeds, and the selected rendering keeps every parameter value except those shadowed by attribute-backed fields. The conditions are the same as for SaveAfterGetFieldsKeepsParameters. Without a content item the post-back fails. |
| Definitions.NewRendering | src/Sitecore.Support.93215/DeviceEditorForm.cs:166-170 | A new rendering carries its item and placeholder. Its data source, parameters, conditions, test and unique id are absent, and all eight caching flags are absent. |
| DeviceEditor.SortDown | src/Sitecore.Support.93215/DeviceEditorForm.cs:576-593 | With a selection that has a successor, the selected rendering and the next one swap, the selection moves down, and every other position is kept. Otherwise nothing changes. |
| DeviceEditor.SortUp | src/Sitecore.Support.93215/DeviceEditorForm.cs:599-616 | With a selection past the first rendering, the selected rendering and the previous one swap, the selection moves up, and every other position is kept. Otherwise nothing changes. The index must lie inside the list, because the code reads it without checking. |
| DeviceEditor.SortUpUndoesSortDown | src/Sitecore.Support.93215/DeviceEditorForm.cs:576-616 | A SortUp right after an effective SortDown restores the renderings and the selection. |
| DeviceEditor.SortDownUndoesSortUp | src/Sitecore.Support.93215/DeviceEditorForm.cs:576-616 | A SortDown right after an effective SortUp restores the renderings and the selection. |
| DeviceEditor.SortingKeepsRenderings | src/Sitecore.Support.93215/DeviceEditorForm.cs:588-589 | Sorting only reorders: the renderings stay the same multiset. |
| DeviceEditor.Remove | src/Sitecore.Support.93215/DeviceEditorForm.cs:534-549 | With a selection inside the list, exactly that rendering goes: the prefix is kept, the suffix moves down, and the selection drops by one (0 becomes -1). Otherwise nothing changes. |
| Text.ReplaceAll | src/Sitecore.Support.93215/DeviceEditorForm.cs:162 | A text that lacks the pattern's first character comes back unchanged. A replacement no longer than the pattern never lengthens the text. |
| DeviceEditor.ParseAddResult | src/Sitecore.Support.93215/DeviceEditorForm.cs:160-163 | The parsed item is the first part, so it has no comma. The open flag is on exactly when the third part is `"1"`. The placeholder is never longer than the second part, and is that part itself when it has no hyphen. Escaping the placeholder gives the second part back, whatever the number of parts and the flag. |
| DeviceEditor.EscapeOfUnescape | src/Sitecore.Support.93215/DeviceEditorForm.cs:162 | For any comma-free text, escaping its un-escaped form gives the text back. |
| DeviceEditor.UnescapeEscape | src/Sitecore.Support.93215/DeviceEditorForm.cs:162 | Un-escaping `-c-` gives back any escaped placeholder in which no `-c` is followed by a hyphen or a comma. |
| DeviceEditor.ParseFormatAddResult | src/Sitecore.Support.93215/DeviceEditorForm.cs:160-163 | The dialog result `item,placeholder,flag`, with commas escaped as `-c-`, parses back to its item, placeholder and flag. This holds when the item has no comma and no `-c` in the placeholder is followed by a hyphen or a comma. |
| DeviceEditor.HyphenatedPlaceholderRoundTrips | src/Sitecore.Support.93215/DeviceEditorForm.cs:160-163 | A hyphenated placeholder key such as `main-content` survives the round trip. |
| DeviceEditor.EscapeIsAmbiguous | src/Sitecore.Support.93215/DeviceEditorForm.cs:162 | The placeholders `,` and `-c-` are sent alike, so a placeholder named `-c-` cannot be added. |
| DeviceEditor.Add | src/Sitecore.Support.93215/DeviceEditorForm.cs:153-199 | The first call opens the dialog without changes. A post-back without a result changes nothing. A result appends a new rendering with the parsed item and placeholder at the end and keeps the rest. Only with the open flag does it select the new rendering and request its properties. |
| DeviceEditor.RemoveUndoesAdd | src/Sitecore.Support.93215/DeviceEditorForm.cs:170-181 | Removing the rendering that Add just added and selected restores the device. |
| DeviceEditor.Change | src/Sitecore.Support.93215/DeviceEditorForm.cs:241-276 | Without a selected rendering that has an item nothing happens. Otherwise the post-back replaces only that rendering's item, and the properties dialog is requested exactly when the flag is on. |
| DeviceEditor.Edit | src/Sitecore.Support.93215/DeviceEditorForm.cs:282-294 | The properties dialog changes neither selection, the layout, the placeholders nor any rendering but the selected one. It opens a dialog exactly on a first call with a selection. A first call and a cancelled post-back change nothing. A post-back with a result stores the saved rendering at the selection and only refreshes. It fails exactly when the save fails or when the rendering names an item and there is no content item; a first call fails in that last case too. |
| DeviceEditor.AddPlaceholder | src/Sitecore.Support.93215/DeviceEditorForm.cs:205-235 | A placeholder with the new id, the chosen key and the settings item's path is appended exactly when the result is neither empty nor `"undefined"`, names an item, and has a non-empty key. Nothing else changes. |
| DeviceEditor.FindPlaceholder | src/Sitecore.Support.93215/DeviceEditorForm.cs:562 | Finds the first placeholder with the selected unique id, or reports that none has it. |
| DeviceEditor.EditPlaceholder | src/Sitecore.Support.93215/DeviceEditorForm.cs:300-333 | Only the selected placeholder can change, and its unique id never does. Nothing changes without a selected, existing placeholder. The first call only opens the dialog. A cancelled, empty, `"undefined"` or unparsable result changes nothing. A confirmed result naming an item sets the key and settings item and only refreshes. |
| DeviceEditor.RemovePlaceholder | src/Sitecore.Support.93215/DeviceEditorForm.cs:555-570 | The first placeholder with the selected id is removed and the others are kept in order. Nothing changes without a selection or a match, and the selection is kept. |
| DeviceEditor.RemovePlaceholderUndoesAdd | src/Sitecore.Support.93215/DeviceEditorForm.cs:216-223 | Selecting and removing the placeholder just added restores the placeholders, provided its id was new. |
| DeviceEditor.SetTest | src/Sitecore.Support.93215/DeviceEditorForm.cs:339-390 | Without a selection, or on a cancelled post-back, nothing changes. The first call only opens the dialog. `#reset#` clears the selected rendering's test. A result naming a test sets it. Both only refresh. A result naming none alerts "Item not found." and changes nothing. Other renderings are never touched. |
| DeviceEditor.SetTestIsIdempotent | src/Sitecore.Support.93215/DeviceEditorForm.cs:352-374 | Handling the same set-test call twice gives the same editor and effect as handling it once. |
| DeviceEditor.OnOK | src/Sitecore.Support.93215/DeviceEditorForm.cs:428-460 | The editor closes exactly when two conditions hold: a non-empty layout value names an item that is not a folder or node, and renderings come with a non-empty layout. It then stores the layout. On rejection it alerts with the reason and changes nothing. |
| DeviceEditor.CommittedRenderingsHaveLayout | src/Sitecore.Support.93215/DeviceEditorForm.cs:447-458 | A committed device with renderings always has a non-empty layout. |

## Left out

- Page rendering and UI state: `Refresh`, `RenderRenderings`, `RenderPlaceholders`, the button-state updates, `OnLoad`, and the click handlers that only restyle and store a selection. This is presentation.
- `PersonalizeControl`: its rule XML handling is vendor code outside this model.
- The modal-dialog transport, `WaitForPostBack` and the `device:edit` message. These become the `OpenDialog` and `OpenEditor` effects.
- The Registry entry remembering the last chosen rendering. It is host storage.
- The session store and the layout XML (`LayoutDefinition.Parse`/`ToXml`). The device is the state itself, and persisting it is the step's result.
- Percent-encoding in `UrlString`, `WebUtil.ParseUrlParameters` and `HttpUtility.UrlDecode`. Those libraries are not visible here. The text codec writes `key=value&…` unescaped, so its round trip covers keys without `&` or `=` and values without `&`.
- RenderingParameters.GetParameters: does not model how `NameValueCollection` handles repeated keys. There, keys match case-insensitively and values are joined by commas. The model compares keys exactly, so `F=1&f=2` gives two keys `F` and `f` where the source gives one key `F` with value `1,2`. Values are stated only for texts without exactly repeated keys.
- RenderingParameters.SaveAfterGetFieldsKeepsParameters: the round trip is stated only for templates whose field names are distinct and in which no accepted field's name is a letter-case variant of "additional parameters". Such a field is saved through the merge branch and loses its parameter, as CaseVariantAdditionalFieldDropsParameter shows.
- QueryString.Merge: the value of each key is stated only for appended pairs with distinct keys. Presence is stated for all inputs.
- Null rendering lists and list entries that are not renderings. Lists are sequences here, so those early exits cannot occur.
- Index-out-of-range exceptions. They become preconditions on `SortUp`, `Change`, `SetTest`, `Edit` and `Show`, plus a three-part requirement on the Add and Change dialog results.
- Definitions.NewRendering: no unique id is assigned. The handler sets only the item and the placeholder; any id the layout definition gives a rendering when it is stored is vendor code.
- The `Assert.IsNotNull` checks on the "Customize Page" link field in `Show` and on the `device:settestdetails` command in `SetTest`. Both throw only when the content database or the command configuration is broken, which this model does not describe.
- `ToLowerInvariant` beyond ASCII. Only `A`–`Z` are lower-cased.
- `Translate.Text` on alert messages. Messages are kept untranslated.
- The "Customize Page" URL and the dialog's title and size in `Show`. They choose where the dialog is shown, not what it edits.
- `GetStandardValueOfField` looks up a field's standard value by item URI and field id. Here the standard value is found by field name in the template given.
- `SecurityDisabler` around template lookups. Access rights are not modelled.
- `DeviceDefinition.GetPlaceholder` is vendor code. A placeholder is found by exact equality of unique ids.
- src/Sitecore.Support.93215/EditRenderingProperties.cs is not part of this model: it converts between layout formats and starts the command.

=== FILE: caching.dfy ===
/** The "Caching" field of the rendering-parameters dialog: the eight
    caching attributes of a rendering packed as `|`-separated `"0"`/`"1"`
    tokens, in the order Cachable, ClearOnIndexUpdate, VaryByData,
    VaryByDevice, VaryByLogin, VaryByParameters, VaryByQueryString,
    VaryByUser.
 */
module Caching {
  import opened Optional
  import opened Text
  import opened Definitions

  /** The value an empty caching field stands for. */
  const AllOff := "0|0|0|0|0|0|0|0"

  /** The eight attributes in token order. */
  function Flags(c: CacheFlags): (fs: seq<Option<string>>)
    ensures |fs| == 8
  {
    [c.cachable, c.clearOnIndexUpdate, c.varyByData, c.varyByDevice,
     c.varyByLogin, c.varyByParameters, c.varyByQueryString, c.varyByUser]
  }

  /** The token of one attribute: on only when it is exactly `"1"`. */
  function Token(flag: Option<string>): string {
    if flag == Some("1") then "1" else "0"
  }

  /** A field value the dialog may hand back: eight tokens, each `"0"` or
      `"1"`. */
  ghost predicate WellFormed(value: string) {
    var parts := Split(value, '|');
    |parts| == 8 && forall i :: 0 <= i < 8 ==> parts[i] == "0" || parts[i] == "1"
  }

  /** `GetCaching`: the field value shows every attribute as one token, in
      token order, and is always well formed. */
  function GetCaching(c: CacheFlags): (value: string)
    ensures WellFormed(value)
    ensures forall i :: 0 <= i < 8 ==>
      (Split(value, '|')[i] == "1" <==> Flags(c)[i] == Some("1"))
  {
    var tokens := seq(8, i requires 0 <= i < 8 => Token(Flags(c)[i]));
    JoinTokens(tokens);
    Join(tokens, '|')
  }

  /** Eight `"0"`/`"1"` tokens joined by `|` split back into themselves. */
  lemma JoinTokens(tokens: seq<string>)
    requires |tokens| == 8
    requires forall i :: 0 <= i < 8 ==> tokens[i] == "0" || tokens[i] == "1"
    ensures Split(Join(tokens, '|'), '|') == tokens
    ensures WellFormed(Join(tokens, '|'))
  {
    SplitJoin(tokens, '|');
  }

  /** The new state of one attribute for token `t`: `"1"` turns it on;
      anything else turns it off if it was set and leaves it absent if it
      was absent. */
  function Apply(t: string, prior: Option<string>): Option<string> {
    if t == "1" then Some("1") else if prior.Some? then Some("0") else None
  }

  /** A value `SetCaching` accepts: eight `|`-separated parts, the empty
      value standing for all off. */
  predicate Accepts(value: string) {
    |Split(if value == "" then AllOff else value, '|')| == 8
  }

  /** `SetCaching`: an empty value means all off; a value that is not
      eight `|`-separated parts fails the format assertion, and otherwise
      attribute `i` follows token `i` by `Apply`. */
  function SetCaching(c: CacheFlags, value: string): (r: Result<CacheFlags>)
    ensures r.Success? <==> Accepts(value)
    ensures var parts := Split(if value == "" then AllOff else value, '|');
      && (r.Success? ==> forall i :: 0 <= i < 8 ==> Flags(r.value)[i] == Apply(parts[i], Flags(c)[i]))
  {
    var parts := Split(if value == "" then AllOff else value, '|');
    if |parts| != 8 then Failure("Invalid caching value format")
    else Success(ApplyAll(c, parts))
  }

  /** All eight attributes updated by their tokens. */
  function ApplyAll(c: CacheFlags, parts: seq<string>): (r: CacheFlags)
    requires |parts| == 8
    ensures forall i :: 0 <= i < 8 ==> Flags(r)[i] == Apply(parts[i], Flags(c)[i])
  {
    CacheFlags(
      Apply(parts[0], c.cachable),
      Apply(parts[1], c.clearOnIndexUpdate),
      Apply(parts[2], c.varyByData),
      Apply(parts[3], c.varyByDevice),
      Apply(parts[4], c.varyByLogin),
      Apply(parts[5], c.varyByParameters),
      Apply(parts[6], c.varyByQueryString),
      Apply(parts[7], c.varyByUser))
  }

  /** Writing a well-formed value and reading it back gives the same value,
      whatever the attributes held before. */
  lemma SetThenGet(c: CacheFlags, value: string)
    requires WellFormed(value)
    ensures SetCaching(c, value).Success?
    ensures GetCaching(SetCaching(c, value).value) == value
  {
    var parts := Split(value, '|');
    assert value != "";
    var c' := SetCaching(c, value).value;
    var got := GetCaching(c');
    var gotParts := Split(got, '|');
    forall i | 0 <= i < 8
      ensures gotParts[i] == parts[i]
    {
      assert Flags(c')[i] == Apply(parts[i], Flags(c)[i]);
    }
    assert gotParts == parts;
    JoinSplit(got, '|');
    JoinSplit(value, '|');
  }

  /** `n` tokens `"0"` separated by `|`. */
  function ZeroTokens(n: nat): string
    requires n >= 1
  {
    if n == 1 then "0" else "0|" + ZeroTokens(n - 1)
  }

  lemma {:induction false} SplitZeroTokens(n: nat)
    requires n >= 1
    ensures Split(ZeroTokens(n), '|') == seq(n, _ => "0")
  {
    if n == 1 {
      SplitWithoutSeparator("0", '|');
    } else {
      SplitZeroTokens(n - 1);
      assert ZeroTokens(n) == "0" + ['|'] + ZeroTokens(n - 1);
      SplitAfterPrefix("0", '|', ZeroTokens(n - 1));
      assert seq(n, _ => "0") == ["0"] + seq(n - 1, _ => "0");
    }
  }

  lemma AllOffIsWellFormed()
    ensures WellFormed(AllOff)
  {
    assert AllOff == ZeroTokens(8);
    SplitZeroTokens(8);
  }

  /** An empty field value switches every attribute off. */
  lemma EmptyMeansAllOff(c: CacheFlags)
    ensures SetCaching(c, "").Success?
    ensures GetCaching(SetCaching(c, "").value) == AllOff
  {
    AllOffIsWellFormed();
    SetThenGet(c, AllOff);
    assert SetCaching(c, "") == SetCaching(c, AllOff);
  }

  /** Writing back what was read normalises the attributes once: every
      attribute becomes absent, `"0"` or `"1"`, the packed value does not
      change, and writing back a second time changes nothing. */
  lemma WriteBackIsIdempotent(c: CacheFlags)
    ensures SetCaching(c, GetCaching(c)).Success?
    ensures var c1 := SetCaching(c, GetCaching(c)).value;
      && GetCaching(c1) == GetCaching(c)
      && SetCaching(c1, GetCaching(c1)) == Success(c1)
      && forall i :: 0 <= i < 8 ==> Flags(c1)[i] in {None, Some("0"), Some("1")}
  {
    var v := GetCaching(c);
    SetThenGet(c, v);
    var c1 := SetCaching(c, v).value;
    var c2 := SetCaching(c1, v).value;
    FlagsDetermine(c2, c1);
  }

  /** The eight attributes determine the flags. */
  lemma FlagsDetermine(a: CacheFlags, b: CacheFlags)
    requires forall i :: 0 <= i < 8 ==> Flags(a)[i] == Flags(b)[i]
    ensures a == b
  {
    assert Flags(a)[0] == Flags(b)[0] && Flags(a)[1] == Flags(b)[1];
    assert Flags(a)[2] == Flags(b)[2] && Flags(a)[3] == Flags(b)[3];
    assert Flags(a)[4] == Flags(b)[4] && Flags(a)[5] == Flags(b)[5];
    assert Flags(a)[6] == Flags(b)[6] && Flags(a)[7] == Flags(b)[7];
  }
}

=== FILE: definitions.dfy ===
/** The layout definition as the device editor sees it: one device with an
    ordered list of renderings and a collection of placeholders, plus the
    content items and dialog round-trips the editor consults.
 */
module Definitions {
  import opened Optional

  /** The eight caching attributes of a rendering. Each is absent, `"0"`,
      `"1"` or any other text the layout XML happened to hold. */
  datatype CacheFlags = CacheFlags(
    cachable: Option<string>,
    clearOnIndexUpdate: Option<string>,
    varyByData: Option<string>,
    varyByDevice: Option<string>,
    varyByLogin: Option<string>,
    varyByParameters: Option<string>,
    varyByQueryString: Option<string>,
    varyByUser: Option<string>)

  /** One rendering of a device (`RenderingDefinition`). `itemId` is the
      rendering item's reference, with `""` standing for none; the other
      attributes are absent when the XML does not carry them.
      `parameters` is the query-string text of the rendering parameters. */
  datatype Rendering = Rendering(
    itemId: string,
    placeholder: Option<string>,
    datasource: Option<string>,
    parameters: Option<string>,
    conditions: Option<string>,
    multiVariateTest: Option<string>,
    uniqueId: Option<string>,
    caching: CacheFlags)

  /** A rendering as `Add` creates it: only the item and the placeholder
      are set. */
  function NewRendering(itemId: string, placeholder: string): (r: Rendering)
    ensures r.itemId == itemId && r.placeholder == Some(placeholder)
    ensures r.datasource.None? && r.parameters.None? && r.conditions.None?
    ensures r.multiVariateTest.None? && r.uniqueId.None?
    ensures r.caching == CacheFlags(None, None, None, None, None, None, None, None)
  {
    var none := CacheFlags(None, None, None, None, None, None, None, None);
    Rendering(itemId, Some(placeholder), None, None, None, None, None, none)
  }

  /** A placeholder setting of a device (`PlaceholderDefinition`). */
  datatype Placeholder = Placeholder(uniqueId: string, key: string, metaDataItemId: string)

  /** A device of the layout definition (`DeviceDefinition`). */
  datatype Device = Device(layout: Option<string>, renderings: seq<Rendering>, placeholders: seq<Placeholder>)

  /** The template kinds `OnOK` distinguishes among layout items. */
  datatype TemplateKind = FolderTemplate | NodeTemplate | OtherTemplate

  /** What the editor reads from a content item it looks up. */
  datatype Item = Item(id: string, fullPath: string, template: TemplateKind, displayName: string)

  /** The pipeline arguments a dialog handler runs with: the first call,
      which opens the dialog, or the post-back after it closed, carrying
      the dialog's result when it has one (`HasResult`). */
  datatype Args = Begin | PostBack(result: Option<string>)
}

=== FILE: deviceeditor.dfy ===
/** The device editor (`DeviceEditorForm`): edits one device of a layout
    definition. Its state is the device plus two selections, a rendering
    index (`-1` for none) and a placeholder unique id (`""` for none).
    Every handler is a step from one editor state to the next, together
    with the effect the page shows.
 */
module DeviceEditor {
  import opened Optional
  import opened Text
  import opened Sequences
  import opened Definitions
  import RenderingParameters

  /** The editor state the page keeps between requests. */
  datatype Editor = Editor(device: Device, selectedIndex: int, placeholderId: string)

  /** What the page does after a handler besides redrawing the lists. */
  datatype Effect =
    | NoEffect
    | OpenDialog           // a modal dialog is shown; the handler runs again on its post-back
    | Alert(message: string)
    | OpenEditor           // the rendering-parameters dialog is requested (`device:edit`)
    | CloseDialog          // the editor commits and closes

  datatype Step = Step(editor: Editor, effect: Effect)

  /** The editor with a new rendering list and everything else kept. */
  function WithRenderings(e: Editor, rs: seq<Rendering>): Editor {
    e.(device := e.device.(renderings := rs))
  }

  /** The editor with a new placeholder list and everything else kept. */
  function WithPlaceholders(e: Editor, ps: seq<Placeholder>): Editor {
    e.(device := e.device.(placeholders := ps))
  }

  // ---------------------------------------------------------------------
  // Ordering the renderings

  /** `SortDown`: the selected rendering swaps places with the next one and
      the selection follows it; without a selected rendering that has a
      successor nothing changes. */
  function SortDown(e: Editor): (e': Editor)
    ensures e'.device.layout == e.device.layout
    ensures e'.device.placeholders == e.device.placeholders
    ensures e'.placeholderId == e.placeholderId
    ensures var rs := e.device.renderings; var i := e.selectedIndex;
      if 0 <= i < |rs| - 1 then
        && |e'.device.renderings| == |rs|
        && e'.selectedIndex == i + 1
        && e'.device.renderings[i] == rs[i + 1]
        && e'.device.renderings[i + 1] == rs[i]
        && forall j :: 0 <= j < |rs| && j != i && j != i + 1 ==> e'.device.renderings[j] == rs[j]
      else e' == e
  {
    var rs := e.device.renderings;
    var i := e.selectedIndex;
    if i < 0 || i >= |rs| - 1 then e
    else WithRenderings(e, InsertAt(RemoveAt(rs, i), i + 1, rs[i])).(selectedIndex := i + 1)
  }

  /** `SortUp`: the selected rendering swaps places with the previous one
      and the selection follows it; without a selection past the first
      rendering nothing changes. The handler reads the selected rendering
      without checking the index against the list. */
  function SortUp(e: Editor): (e': Editor)
    requires e.selectedIndex > 0 ==> e.selectedIndex < |e.device.renderings|
    ensures e'.device.layout == e.device.layout
    ensures e'.device.placeholders == e.device.placeholders
    ensures e'.placeholderId == e.placeholderId
    ensures var rs := e.device.renderings; var i := e.selectedIndex;
      if 0 < i then
        && |e'.device.renderings| == |rs|
        && e'.selectedIndex == i - 1
        && e'.device.renderings[i] == rs[i - 1]
        && e'.device.renderings[i - 1] == rs[i]
        && forall j :: 0 <= j < |rs| && j != i && j != i - 1 ==> e'.device.renderings[j] == rs[j]
      else e' == e
  {
    var rs := e.device.renderings;
    var i := e.selectedIndex;
    if i <= 0 then e
    else WithRenderings(e, InsertAt(RemoveAt(rs, i), i - 1, rs[i])).(selectedIndex := i - 1)
  }

  /** Moving a rendering down and back up restores the editor. */
  lemma SortUpUndoesSortDown(e: Editor)
    requires 0 <= e.selectedIndex < |e.device.renderings| - 1
    ensures SortUp(SortDown(e)) == e
  {
    var e2 := SortUp(SortDown(e));
    assert e2.device.renderings == e.device.renderings;
  }

  /** Moving a rendering up and back down restores the editor. */
  lemma SortDownUndoesSortUp(e: Editor)
    requires 0 < e.selectedIndex < |e.device.renderings|
    ensures SortDown(SortUp(e)) == e
  {
    var e2 := SortDown(SortUp(e));
    assert e2.device.renderings == e.device.renderings;
  }

  /** Sorting only reorders: the renderings stay the same multiset. */
  lemma SortingKeepsRenderings(e: Editor)
    requires e.selectedIndex > 0 ==> e.selectedIndex < |e.device.renderings|
    ensures multiset(SortDown(e).device.renderings) == multiset(e.device.renderings)
    ensures multiset(SortUp(e).device.renderings) == multiset(e.device.renderings)
  {
    var rs := e.device.renderings;
    var i := e.selectedIndex;
    if 0 <= i < |rs| - 1 {
      RemoveAtMultiset(rs, i);
      InsertAtMultiset(RemoveAt(rs, i), i + 1, rs[i]);
    }
    if 0 < i {
      RemoveAtMultiset(rs, i);
      InsertAtMultiset(RemoveAt(rs, i), i - 1, rs[i]);
    }
  }

  /** `Remove`: the selected rendering is deleted and the selection moves
      to the previous one (`-1` after the first); a selection outside the
      list changes nothing. */
  function Remove(e: Editor): (e': Editor)
    ensures e'.device.layout == e.device.layout
    ensures e'.device.placeholders == e.device.placeholders
    ensures e'.placeholderId == e.placeholderId
    ensures var rs := e.device.renderings; var i := e.selectedIndex;
      if 0 <= i < |rs| then
        && |e'.device.renderings| == |rs| - 1
        && e'.selectedIndex == i - 1
        && (forall j :: 0 <= j < i ==> e'.device.renderings[j] == rs[j])
        && (forall j :: i <= j < |rs| - 1 ==> e'.device.renderings[j] == rs[j + 1])
      else e' == e
  {
    var rs := e.device.renderings;
    var i := e.selectedIndex;
    if i < 0 || i >= |rs| then e
    else WithRenderings(e, RemoveAt(rs, i)).(selectedIndex := i - 1)
  }

  // ---------------------------------------------------------------------
  // Adding and changing renderings

  /** What the select-rendering dialog returns: the rendering item, the
      placeholder and whether to open its properties at once. */
  datatype AddResult = AddResult(itemId: string, placeholder: string, openProperties: bool)

  /** The dialog's escape for commas in a placeholder name. */
  function EscapePlaceholder(p: string): (q: string)
    ensures ',' !in q
    ensures |q| >= |p| && (|q| == 0 <==> |p| == 0)
    ensures |p| > 0 ==> q[0] == if p[0] == ',' then '-' else p[0]
    decreases |p|
  {
    if |p| == 0 then ""
    else if p[0] == ',' then "-c-" + EscapePlaceholder(p[1..])
    else [p[0]] + EscapePlaceholder(p[1..])
  }

  /** The dialog result `item,placeholder,flag` with the escaped
      placeholder. */
  function FormatAddResult(a: AddResult): string {
    a.itemId + "," + EscapePlaceholder(a.placeholder) + "," + (if a.openProperties then "1" else "0")
  }

  /** A dialog result that names at least three comma-separated parts. */
  predicate WellFormedAddResult(s: string) {
    |Split(s, ',')| >= 3
  }

  /** The parsing `Add` does: part 0 is the item, part 1 the placeholder
      with every `-c-` turned back into a comma, and the flag is on exactly
      when part 2 is `"1"`. Parts after the third are ignored. Un-escaping
      never lengthens the placeholder, and a part without a hyphen is read
      as it stands. */
  function ParseAddResult(s: string): (a: AddResult)
    requires WellFormedAddResult(s)
    ensures a.itemId == Split(s, ',')[0] && ',' !in a.itemId
    ensures a.openProperties <==> Split(s, ',')[2] == "1"
    ensures |a.placeholder| <= |Split(s, ',')[1]|
    ensures '-' !in Split(s, ',')[1] ==> a.placeholder == Split(s, ',')[1]
    ensures EscapePlaceholder(a.placeholder) == Split(s, ',')[1]
  {
    var parts := Split(s, ',');
    EscapeOfUnescape(parts[1]);
    AddResult(parts[0], ReplaceAll(parts[1], "-c-", ","), parts[2] == "1")
  }

  /** Escaping the un-escaped form of a comma-free part gives the part
      back: every comma the un-escaping made stood for a `-c-`. */
  lemma {:induction false} EscapeOfUnescape(x: string)
    requires ',' !in x
    ensures EscapePlaceholder(ReplaceAll(x, "-c-", ",")) == x
    decreases |x|
  {
    if |x| > 0 {
      if |x| >= 3 && x[..3] == "-c-" {
        var y := ReplaceAll(x[3..], "-c-", ",");
        EscapeOfUnescape(x[3..]);
        assert ("," + y)[1..] == y;
        assert x == x[..3] + x[3..];
      } else {
        var y := ReplaceAll(x[1..], "-c-", ",");
        EscapeOfUnescape(x[1..]);
        assert ([x[0]] + y)[1..] == y;
        assert x == [x[0]] + x[1..];
      }
    }
  }

  /** A placeholder the escape carries faithfully: no `-c` in it is
      followed by a hyphen or a comma, so no `-c-` appears in its escaped
      form except where a comma was. */
  predicate Unambiguous(p: string) {
    forall i :: 0 <= i < |p| - 2 ==> !(p[i] == '-' && p[i + 1] == 'c' && (p[i + 2] == '-' || p[i + 2] == ','))
  }

  /** Un-escaping an escaped placeholder gives it back when it is
      unambiguous. */
  lemma {:induction false} UnescapeEscape(p: string)
    requires Unambiguous(p)
    ensures ReplaceAll(EscapePlaceholder(p), "-c-", ",") == p
    decreases |p|
  {
    if |p| > 0 {
      var rest := EscapePlaceholder(p[1..]);
      UnambiguousTail(p);
      UnescapeEscape(p[1..]);
      if p[0] == ',' {
        var q := "-c-" + rest;
        assert q[..3] == "-c-" && q[3..] == rest;
      } else {
        var q := [p[0]] + rest;
        assert q[1..] == rest;
        NoEscapeAtStart(p);
        assert |q| >= 3 ==> q[..3][0] == q[0] && q[..3][1] == q[1] && q[..3][2] == q[2];
      }
      assert p == [p[0]] + p[1..];
    }
  }

  lemma UnambiguousTail(p: string)
    requires |p| > 0 && Unambiguous(p)
    ensures Unambiguous(p[1..])
  {
    forall i | 0 <= i < |p[1..]| - 2
      ensures !(p[1..][i] == '-' && p[1..][i + 1] == 'c' && (p[1..][i + 2] == '-' || p[1..][i + 2] == ','))
    {
      assert p[1..][i] == p[i + 1] && p[1..][i + 1] == p[i + 2] && p[1..][i + 2] == p[i + 3];
    }
  }

  /** The escape of an unambiguous placeholder that does not start with a
      comma does not start with `-c-`. */
  lemma NoEscapeAtStart(p: string)
    requires |p| > 0 && p[0] != ',' && Unambiguous(p)
    ensures var q := EscapePlaceholder(p);
      |q| >= 3 ==> q[0] != '-' || q[1] != 'c' || q[2] != '-'
  {
    var q := EscapePlaceholder(p);
    if |q| >= 3 && p[0] == '-' {
      var rest := EscapePlaceholder(p[1..]);
      assert q == [p[0]] + rest;
      assert |rest| >= 2 && q[1] == rest[0] && q[2] == rest[1];
      if p[1] == 'c' {
        var tail := EscapePlaceholder(p[2..]);
        assert p[1..][0] == 'c' && p[1..][1..] == p[2..];
        assert rest == [p[1..][0]] + tail;
        assert |tail| >= 1 && rest[1] == tail[0];
        assert p[2] != '-' && p[2] != ',';
      }
    }
  }

  /** The result the dialog formats parses back to what it stood for, as
      long as the item id has no comma and the placeholder is
      unambiguous. */
  lemma ParseFormatAddResult(a: AddResult)
    requires ',' !in a.itemId && Unambiguous(a.placeholder)
    ensures WellFormedAddResult(FormatAddResult(a))
    ensures ParseAddResult(FormatAddResult(a)) == a
  {
    var flag := if a.openProperties then "1" else "0";
    var parts := [a.itemId, EscapePlaceholder(a.placeholder), flag];
    assert Join(parts, ',') == FormatAddResult(a) by {
      assert parts[1..][1..] == [flag];
      assert Join(parts[1..], ',') == EscapePlaceholder(a.placeholder) + [','] + flag;
      assert Join(parts, ',') == a.itemId + [','] + (EscapePlaceholder(a.placeholder) + [','] + flag);
    }
    SplitJoin(parts, ',');
    UnescapeEscape(a.placeholder);
  }

  /** An ordinary hyphenated placeholder key survives the round trip. */
  lemma HyphenatedPlaceholderRoundTrips(itemId: string, openProperties: bool)
    requires ',' !in itemId
    ensures WellFormedAddResult(FormatAddResult(AddResult(itemId, "main-content", openProperties)))
    ensures var a := AddResult(itemId, "main-content", openProperties);
      ParseAddResult(FormatAddResult(a)) == a
  {
    var p := "main-content";
    assert Unambiguous(p) by {
      assert forall i :: 0 <= i < |p| && i != 4 ==> p[i] != '-';
      assert p[6] == 'o';
    }
    ParseFormatAddResult(AddResult(itemId, p, openProperties));
  }

  /** The escape cannot carry a placeholder named `-c-`: it reads back as a
      comma. */
  lemma EscapeIsAmbiguous()
    ensures EscapePlaceholder(",") == EscapePlaceholder("-c-")
  {
    assert EscapePlaceholder("-c-") == "-" + EscapePlaceholder("c-");
  }

  /** `Add`: the first call opens the select-rendering dialog; its
      post-back appends the chosen rendering at the end and, when the open
      flag is on, selects it and requests its properties dialog. A
      post-back without a result changes nothing. */
  function Add(e: Editor, args: Args): (s: Step)
    requires args.PostBack? && args.result.Some? ==> WellFormedAddResult(args.result.value)
    ensures args.Begin? ==> s == Step(e, OpenDialog)
    ensures args == PostBack(None) ==> s == Step(e, NoEffect)
    ensures args.PostBack? && args.result.Some? ==>
      var a := ParseAddResult(args.result.value);
      var n := |e.device.renderings|;
      && s.editor.device.layout == e.device.layout
      && s.editor.device.placeholders == e.device.placeholders
      && s.editor.placeholderId == e.placeholderId
      && |s.editor.device.renderings| == n + 1
      && s.editor.device.renderings[..n] == e.device.renderings
      && s.editor.device.renderings[n] == NewRendering(a.itemId, a.placeholder)
      && (a.openProperties ==> s.editor.selectedIndex == n && s.effect == OpenEditor)
      && (!a.openProperties ==> s.editor.selectedIndex == e.selectedIndex && s.effect == NoEffect)
  {
    match args
    case Begin => Step(e, OpenDialog)
    case PostBack(None) => Step(e, NoEffect)
    case PostBack(Some(result)) =>
      var a := ParseAddResult(result);
      var rs := e.device.renderings + [NewRendering(a.itemId, a.placeholder)];
      var added := WithRenderings(e, rs);
      if a.openProperties then Step(added.(selectedIndex := |rs| - 1), OpenEditor)
      else Step(added, NoEffect)
  }

  /** Removing the rendering that `Add` just added and selected restores
      the device; the selection ends on the rendering before it. */
  lemma RemoveUndoesAdd(e: Editor, result: string)
    requires WellFormedAddResult(result)
    requires ParseAddResult(result).openProperties
    ensures Remove(Add(e, PostBack(Some(result))).editor) ==
      e.(selectedIndex := |e.device.renderings| - 1)
  {
    var n := |e.device.renderings|;
    var e2 := Remove(Add(e, PostBack(Some(result))).editor);
    assert e2.device.renderings == e.device.renderings;
  }

  /** `Change`: for a selected rendering with an item, the first call opens
      the select-rendering dialog and its post-back replaces the item of
      that rendering and nothing else, requesting the properties dialog
      when the open flag is on. */
  function Change(e: Editor, args: Args): (s: Step)
    requires e.selectedIndex < |e.device.renderings|
    requires args.PostBack? && args.result.Some? ==> WellFormedAddResult(args.result.value)
    ensures e.selectedIndex < 0 || e.device.renderings[e.selectedIndex].itemId == "" ==>
      s == Step(e, NoEffect)
    ensures s.editor.selectedIndex == e.selectedIndex && s.editor.placeholderId == e.placeholderId
    ensures s.editor.device.layout == e.device.layout
    ensures s.editor.device.placeholders == e.device.placeholders
    ensures |s.editor.device.renderings| == |e.device.renderings|
    ensures forall j :: 0 <= j < |e.device.renderings| && j != e.selectedIndex ==>
      s.editor.device.renderings[j] == e.device.renderings[j]
    ensures 0 <= e.selectedIndex && e.device.renderings[e.selectedIndex].itemId != "" ==>
      var r := e.device.renderings[e.selectedIndex];
      match args
      case Begin => s == Step(e, OpenDialog)
      case PostBack(None) => s == Step(e, NoEffect)
      case PostBack(Some(result)) =>
        var a := ParseAddResult(result);
        && s.editor.device.renderings[e.selectedIndex] == r.(itemId := a.itemId)
        && (s.effect == OpenEditor <==> a.openProperties)
        && (s.effect == NoEffect <==> !a.openProperties)
  {
    var i := e.selectedIndex;
    if i < 0 || e.device.renderings[i].itemId == "" then Step(e, NoEffect)
    else
      match args
      case Begin => Step(e, OpenDialog)
      case PostBack(None) => Step(e, NoEffect)
      case PostBack(Some(result)) =>
        var parts := Split(result, ',');
        var r := e.device.renderings[i];
        var changed := WithRenderings(e, e.device.renderings[i := r.(itemId := parts[0])]);
        Step(changed, if parts[2] == "1" then OpenEditor else NoEffect)
  }

  /** `Edit`: the rendering-parameters dialog on the selected rendering,
      which fails when the rendering names an item and the editor was
      opened without a content item. */
  function Edit(e: Editor, args: Args, svc: RenderingParameters.Services,
                opts: RenderingParameters.ViewOptions): (s: Result<Step>)
    requires args.Begin? ==> e.selectedIndex < |e.device.renderings|
    requires args.PostBack? && args.result.Some? ==> 0 <= e.selectedIndex < |e.device.renderings|
    ensures s.Success? ==>
      && s.value.editor.selectedIndex == e.selectedIndex
      && s.value.editor.placeholderId == e.placeholderId
      && s.value.editor.device.layout == e.device.layout
      && s.value.editor.device.placeholders == e.device.placeholders
    ensures s.Success? ==> (s.value.effect == OpenDialog <==> args.Begin? && e.selectedIndex >= 0)
    ensures s.Success? ==>
      && |s.value.editor.device.renderings| == |e.device.renderings|
      && forall j :: 0 <= j < |e.device.renderings| && j != e.selectedIndex ==>
           s.value.editor.device.renderings[j] == e.device.renderings[j]
    ensures args.Begin? ==>
      && (s.Success? <==>
            e.selectedIndex < 0 ||
            !RenderingParameters.MissingContentItem(e.device.renderings[e.selectedIndex], svc))
      && (s.Success? ==> s.value.editor == e)
    ensures args == PostBack(None) ==> s == Success(Step(e, NoEffect))
    ensures args.PostBack? && args.result.Some? ==>
      var r := e.device.renderings[e.selectedIndex];
      var saved := RenderingParameters.Save(r, RenderingParameters.StandardValuesOf(r, svc),
                                            svc.parseFields(args.result.value), svc.itemIdOf);
      && (s.Success? <==> !RenderingParameters.MissingContentItem(r, svc) && saved.Success?)
      && (s.Success? ==>
            && s.value.effect == NoEffect
            && s.value.editor.device.renderings == e.device.renderings[e.selectedIndex := saved.value])
  {
    match RenderingParameters.Show(e.device, e.selectedIndex, args, svc, opts)
    case Failure(msg) => Failure(msg)
    case Success(reply) =>
      Success(Step(e.(device := reply.device), if reply.done then NoEffect else OpenDialog))
  }

  // ---------------------------------------------------------------------
  // Placeholders

  /** The outcome of the placeholder-settings dialog: the settings item
      and the placeholder key, when the result names an item. */
  type PlaceholderDialogParser = string -> Option<(Item, string)>

  /** A result the placeholder-settings dialog returns when it was
      confirmed. */
  predicate HasPlaceholderResult(args: Args) {
    args.PostBack? && args.result.Some? && args.result.value != "" && args.result.value != "undefined"
  }

  /** `AddPlaceholder`: the post-back appends a placeholder with a new
      unique id, the chosen key and the settings item's path, unless the
      result is empty or `"undefined"`, names no item, or has an empty key. */
  function AddPlaceholder(e: Editor, args: Args, parse: PlaceholderDialogParser, freshId: string): (s: Step)
    ensures args.Begin? ==> s == Step(e, OpenDialog)
    ensures s.editor.device.renderings == e.device.renderings
    ensures s.editor.device.layout == e.device.layout
    ensures s.editor.selectedIndex == e.selectedIndex && s.editor.placeholderId == e.placeholderId
    ensures args.PostBack? ==> s.effect == NoEffect
    ensures var ps := e.device.placeholders;
      if HasPlaceholderResult(args) && parse(args.result.value).Some? && parse(args.result.value).value.1 != "" then
        var (item, key) := parse(args.result.value).value;
        s.editor.device.placeholders == ps + [Placeholder(freshId, key, item.fullPath)]
      else s.editor.device.placeholders == ps
  {
    if args.Begin? then Step(e, OpenDialog)
    else if !HasPlaceholderResult(args) then Step(e, NoEffect)
    else
      match parse(args.result.value)
      case None => Step(e, NoEffect)
      case Some((item, key)) =>
        if key == "" then Step(e, NoEffect)
        else Step(WithPlaceholders(e, e.device.placeholders + [Placeholder(freshId, key, item.fullPath)]), NoEffect)
  }

  /** The position of the first placeholder with unique id `id`. */
  function FindPlaceholder(ps: seq<Placeholder>, id: string): (i: Option<nat>)
    ensures i.Some? ==> i.value < |ps| && ps[i.value].uniqueId == id
    ensures i.Some? ==> forall j :: 0 <= j < i.value ==> ps[j].uniqueId != id
    ensures i.None? ==> forall j :: 0 <= j < |ps| ==> ps[j].uniqueId != id
    decreases |ps|
  {
    if |ps| == 0 then None
    else if ps[0].uniqueId == id then Some(0)
    else match FindPlaceholder(ps[1..], id)
      case None => None
      case Some(k) => Some(k + 1)
  }

  /** `EditPlaceholder`: for a selected placeholder, the post-back sets its
      key and settings item from the dialog, unless the result is empty or
      `"undefined"` or names no item. */
  function EditPlaceholder(e: Editor, args: Args, parse: PlaceholderDialogParser): (s: Step)
    ensures s.editor.device.renderings == e.device.renderings
    ensures s.editor.device.layout == e.device.layout
    ensures s.editor.selectedIndex == e.selectedIndex && s.editor.placeholderId == e.placeholderId
    ensures var ps := e.device.placeholders;
      |s.editor.device.placeholders| == |ps|
      && forall j :: 0 <= j < |ps| ==>
           s.editor.device.placeholders[j].uniqueId == ps[j].uniqueId
           && (ps[j].uniqueId != e.placeholderId ==> s.editor.device.placeholders[j] == ps[j])
    ensures e.placeholderId == "" || FindPlaceholder(e.device.placeholders, e.placeholderId).None? ==>
      s == Step(e, NoEffect)
    ensures e.placeholderId != "" && FindPlaceholder(e.device.placeholders, e.placeholderId).Some? ==>
      && (args.Begin? ==> s == Step(e, OpenDialog))
      && (args.PostBack? && (!HasPlaceholderResult(args) || parse(args.result.value).None?) ==>
            s == Step(e, NoEffect))
    ensures HasPlaceholderResult(args) && e.placeholderId != "" &&
            FindPlaceholder(e.device.placeholders, e.placeholderId).Some? &&
            parse(args.result.value).Some? ==>
      var i := FindPlaceholder(e.device.placeholders, e.placeholderId).value;
      var (item, key) := parse(args.result.value).value;
      && s.editor.device.placeholders[i] == Placeholder(e.placeholderId, key, item.fullPath)
      && s.effect == NoEffect
  {
    if e.placeholderId == "" then Step(e, NoEffect)
    else
      match FindPlaceholder(e.device.placeholders, e.placeholderId)
      case None => Step(e, NoEffect)
      case Some(i) =>
        if args.Begin? then Step(e, OpenDialog)
        else if !HasPlaceholderResult(args) then Step(e, NoEffect)
        else
          match parse(args.result.value)
          case None => Step(e, NoEffect)
          case Some((item, key)) =>
            var p := e.device.placeholders[i].(key := key, metaDataItemId := item.fullPath);
            Step(WithPlaceholders(e, e.device.placeholders[i := p]), NoEffect)
  }

  /** `RemovePlaceholder`: the first placeholder whose unique id is the
      selected one is deleted; nothing changes when none is selected or
      none matches. The selection itself is kept. */
  function RemovePlaceholder(e: Editor): (e': Editor)
    ensures e'.device.renderings == e.device.renderings
    ensures e'.device.layout == e.device.layout
    ensures e'.selectedIndex == e.selectedIndex && e'.placeholderId == e.placeholderId
    ensures var ps := e.device.placeholders;
      if e.placeholderId != "" && exists j :: 0 <= j < |ps| && ps[j].uniqueId == e.placeholderId then
        var i := FindPlaceholder(ps, e.placeholderId).value;
        && |e'.device.placeholders| == |ps| - 1
        && (forall j :: 0 <= j < i ==> e'.device.placeholders[j] == ps[j])
        && (forall j :: i <= j < |ps| - 1 ==> e'.device.placeholders[j] == ps[j + 1])
      else e' == e
  {
    if e.placeholderId == "" then e
    else
      match FindPlaceholder(e.device.placeholders, e.placeholderId)
      case None => e
      case Some(i) => WithPlaceholders(e, RemoveAt(e.device.placeholders, i))
  }

  /** Removing the placeholder `AddPlaceholder` just added, once it is
      selected, restores the placeholders, provided its new id was not in
      use. */
  lemma RemovePlaceholderUndoesAdd(e: Editor, args: Args, parse: PlaceholderDialogParser, freshId: string)
    requires freshId != ""
    requires forall j :: 0 <= j < |e.device.placeholders| ==> e.device.placeholders[j].uniqueId != freshId
    ensures var added := AddPlaceholder(e, args, parse, freshId).editor;
      RemovePlaceholder(added.(placeholderId := freshId)).device.placeholders == e.device.placeholders
  {
    var ps := e.device.placeholders;
    var added := AddPlaceholder(e, args, parse, freshId).editor;
    if |added.device.placeholders| == |ps| + 1 {
      assert FindPlaceholder(added.device.placeholders, freshId) == Some(|ps|) by {
        var f := FindPlaceholder(added.device.placeholders, freshId);
        assert added.device.placeholders[|ps|].uniqueId == freshId;
      }
    }
  }

  // ---------------------------------------------------------------------
  // Tests and commit

  /** The outcome of the set-test dialog: the id of the test it names. */
  type TestDialogParser = string -> Option<string>

  /** `SetTest`: for a selected rendering, the post-back `"#reset#"` clears
      its test and any other result sets the test it names; a result that
      names none alerts and changes nothing. */
  function SetTest(e: Editor, args: Args, parse: TestDialogParser): (s: Step)
    requires e.selectedIndex < |e.device.renderings|
    ensures s.editor.selectedIndex == e.selectedIndex && s.editor.placeholderId == e.placeholderId
    ensures s.editor.device.layout == e.device.layout
    ensures s.editor.device.placeholders == e.device.placeholders
    ensures |s.editor.device.renderings| == |e.device.renderings|
    ensures forall j :: 0 <= j < |e.device.renderings| && j != e.selectedIndex ==>
      s.editor.device.renderings[j] == e.device.renderings[j]
    ensures e.selectedIndex < 0 || args == PostBack(None) ==> s == Step(e, NoEffect)
    ensures 0 <= e.selectedIndex && args.Begin? ==> s == Step(e, OpenDialog)
    ensures s.effect.Alert? ==> s.editor == e && s.effect.message == "Item not found."
    ensures 0 <= e.selectedIndex && args.PostBack? && args.result.Some? ==>
      var r := e.device.renderings[e.selectedIndex];
      var result := args.result.value;
      if result == "#reset#" then
        && s.editor.device.renderings[e.selectedIndex] == r.(multiVariateTest := Some(""))
        && s.effect == NoEffect
      else if parse(result).None? then
        s == Step(e, Alert("Item not found."))
      else
        && s.editor.device.renderings[e.selectedIndex] == r.(multiVariateTest := parse(result))
        && s.effect == NoEffect
  {
    var i := e.selectedIndex;
    if i < 0 then Step(e, NoEffect)
    else
      var r := e.device.renderings[i];
      match args
      case Begin => Step(e, OpenDialog)
      case PostBack(None) => Step(e, NoEffect)
      case PostBack(Some(result)) =>
        if result == "#reset#" then
          Step(WithRenderings(e, e.device.renderings[i := r.(multiVariateTest := Some(""))]), NoEffect)
        else
          match parse(result)
          case None => Step(e, Alert("Item not found."))
          case Some(id) => Step(WithRenderings(e, e.device.renderings[i := r.(multiVariateTest := Some(id))]), NoEffect)
  }

  /** Handling the same set-test call a second time changes nothing more:
      the test it sets is already set, and an alert or a dialog repeats. */
  lemma SetTestIsIdempotent(e: Editor, args: Args, parse: TestDialogParser)
    requires e.selectedIndex < |e.device.renderings|
    ensures var s := SetTest(e, args, parse);
      SetTest(s.editor, args, parse) == s
  {
    var s := SetTest(e, args, parse);
    var i := e.selectedIndex;
    if 0 <= i && args.PostBack? && args.result.Some? && s.effect == NoEffect {
      var rs := s.editor.device.renderings;
      assert rs[i := rs[i]] == rs;
    }
  }

  const LayoutNotFound := "Layout not found."
  const LayoutRequired := "You must specify a layout when you specify renderings."

  /** The alert for an item that is a folder or a node rather than a
      layout. */
  function NotALayout(displayName: string): string {
    "\"" + displayName + "\" is not a layout."
  }

  /** Whether `OnOK` accepts the layout value. */
  predicate AcceptsLayout(e: Editor, value: string, getItem: string -> Option<Item>) {
    && (value != "" ==> getItem(value).Some? && getItem(value).value.template == OtherTemplate)
    && (|e.device.renderings| > 0 ==> value != "")
  }

  /** `OnOK`: a non-empty layout value must name an item that is neither a
      folder nor a node, and a device with renderings needs a layout. On
      success the layout is stored and the editor closes; on rejection an
      alert says why and nothing changes. */
  function OnOK(e: Editor, value: string, getItem: string -> Option<Item>): (s: Step)
    ensures s.effect == CloseDialog <==> AcceptsLayout(e, value, getItem)
    ensures s.effect == CloseDialog ==> s.editor == e.(device := e.device.(layout := Some(value)))
    ensures s.effect != CloseDialog ==> s.editor == e && s.effect.Alert?
    ensures value != "" && getItem(value).None? ==> s.effect == Alert(LayoutNotFound)
    ensures value != "" && getItem(value).Some? && getItem(value).value.template != OtherTemplate ==>
      s.effect == Alert(NotALayout(getItem(value).value.displayName))
    ensures value == "" && |e.device.renderings| > 0 ==> s.effect == Alert(LayoutRequired)
  {
    if value != "" && getItem(value).None? then Step(e, Alert(LayoutNotFound))
    else if value != "" && getItem(value).value.template in {FolderTemplate, NodeTemplate} then
      Step(e, Alert(NotALayout(getItem(value).value.displayName)))
    else if |e.device.renderings| > 0 && value == "" then Step(e, Alert(LayoutRequired))
    else Step(e.(device := e.device.(layout := Some(value))), CloseDialog)
  }

  /** Whatever the editor commits, renderings never go without a layout. */
  lemma CommittedRenderingsHaveLayout(e: Editor, value: string, getItem: string -> Option<Item>)
    ensures var s := OnOK(e, value, getItem);
      s.effect == CloseDialog && |s.editor.device.renderings| > 0 ==>
        s.editor.device.layout.Some? && s.editor.device.layout.value != ""
  {
  }
}

=== FILE: optional.dfy ===
/** Values that may be absent, and computations that may fail.

    `Option` stands for the nullable strings of the layout definition
    (`null` is `None`), and `Result` for an operation that either yields a
    value or stops with an exception message.
 */
module Optional {

  datatype Option<+T> = None | Some(value: T) {

    /** The value, or `default` when absent (the `??` operator). */
    function GetOr(default: T): T {
      match this
      case Some(v) => v
      case None => default
    }
  }

  datatype Result<+T> = Success(value: T) | Failure(error: string)
}

=== FILE: querystring.dfy ===
/** Rendering parameters as an ordered list of key/value pairs, and the
    `key=value&key=value` text that stores them.

    The list stands for both the `NameValueCollection` that
    `WebUtil.ParseUrlParameters` returns and the `UrlString` that the
    save path rebuilds: a lookup finds the first pair with the key, and
    setting a key replaces its value in place or appends a new pair.
    Percent-encoding is not modelled; `Safe` names the pairs whose text
    form needs none.
 */
module QueryString {
  import opened Optional
  import opened Text

  type Pairs = seq<(string, string)>

  /** The value stored under `k`, if any (first match). */
  function Get(ps: Pairs, k: string): Option<string>
    decreases |ps|
  {
    if |ps| == 0 then None
    else if ps[0].0 == k then Some(ps[0].1)
    else Get(ps[1..], k)
  }

  /** No key occurs twice. */
  ghost predicate UniqueKeys(ps: Pairs)
    decreases |ps|
  {
    |ps| == 0 || (Get(ps[1..], ps[0].0).None? && UniqueKeys(ps[1..]))
  }

  /** Neither key nor value needs escaping: no `&` anywhere and no `=` in
      the key. */
  ghost predicate Clean(p: (string, string)) {
    '&' !in p.0 && '=' !in p.0 && '&' !in p.1
  }

  /** Every pair is clean. */
  ghost predicate AllClean(ps: Pairs)
    decreases |ps|
  {
    |ps| == 0 || (Clean(ps[0]) && AllClean(ps[1..]))
  }

  /** Every pair is clean and has a non-empty key. */
  ghost predicate Safe(ps: Pairs) {
    AllClean(ps) && forall i :: 0 <= i < |ps| ==> ps[i].0 != ""
  }

  /** A safe list is a safe first pair followed by a safe list. */
  lemma SafeCons(ps: Pairs)
    requires |ps| > 0
    ensures Safe(ps) <==> Clean(ps[0]) && ps[0].0 != "" && Safe(ps[1..])
  {
    assert forall i :: 0 < i < |ps| ==> ps[i] == ps[1..][i - 1];
  }

  /** `collection[k] = v`: the value under `k` becomes `v`, no other key
      changes. */
  function Set(ps: Pairs, k: string, v: string): (r: Pairs)
    ensures Get(r, k) == Some(v)
    ensures forall j :: j != k ==> Get(r, j) == Get(ps, j)
    ensures UniqueKeys(ps) ==> UniqueKeys(r)
    ensures Safe(ps) && Clean((k, v)) && k != "" ==> Safe(r)
    decreases |ps|
  {
    if |ps| == 0 then [(k, v)]
    else if ps[0].0 == k then [(k, v)] + ps[1..]
    else [ps[0]] + Set(ps[1..], k, v)
  }

  /** `collection.Remove(k)`: `k` is gone, no other key changes. */
  function Delete(ps: Pairs, k: string): (r: Pairs)
    ensures Get(r, k) == None
    ensures forall j :: j != k ==> Get(r, j) == Get(ps, j)
    ensures UniqueKeys(ps) ==> UniqueKeys(r)
    ensures Safe(ps) ==> Safe(r)
    ensures |r| <= |ps|
    decreases |ps|
  {
    if |ps| == 0 then []
    else
      var rest := Delete(ps[1..], k);
      if ps[0].0 == k then rest else [ps[0]] + rest
  }

  /** Sets every pair of `qs` into `ps` in order (`UrlString.Append`). For
      distinct keys in `qs`, a key of `qs` takes its value from `qs` and
      any other key keeps its value in `ps`. */
  function Merge(ps: Pairs, qs: Pairs): (r: Pairs)
    ensures UniqueKeys(qs) ==>
      forall k :: Get(r, k) == if Get(qs, k).Some? then Get(qs, k) else Get(ps, k)
    ensures forall k :: Get(r, k).Some? <==> Get(qs, k).Some? || Get(ps, k).Some?
    ensures UniqueKeys(ps) ==> UniqueKeys(r)
    ensures Safe(ps) && Safe(qs) ==> Safe(r)
    decreases |qs|
  {
    if |qs| == 0 then ps
    else
      Merge(Set(ps, qs[0].0, qs[0].1), qs[1..])
  }

  /** The pairs whose key is non-empty, in order. */
  function NonEmptyKeys(ps: Pairs): (r: Pairs)
    ensures forall k :: k != "" ==> Get(r, k) == Get(ps, k)
    ensures forall i :: 0 <= i < |r| ==> r[i].0 != ""
    ensures Get(r, "").None?
    ensures UniqueKeys(ps) ==> UniqueKeys(r)
    ensures AllClean(ps) ==> Safe(r)
    ensures Safe(ps) ==> r == ps
    decreases |ps|
  {
    if |ps| == 0 then []
    else if ps[0].0 == "" then NonEmptyKeys(ps[1..])
    else [ps[0]] + NonEmptyKeys(ps[1..])
  }

  /** The text `key=value` of one pair. */
  function Entry(p: (string, string)): string {
    p.0 + "=" + p.1
  }

  function Entries(ps: Pairs): (r: seq<string>)
    ensures |r| == |ps|
    ensures forall i :: 0 <= i < |ps| ==> r[i] == Entry(ps[i])
    decreases |ps|
  {
    if |ps| == 0 then [] else [Entry(ps[0])] + Entries(ps[1..])
  }

  /** `UrlString.ToString()`: the entries joined with `&`. */
  function Format(ps: Pairs): string {
    if |ps| == 0 then "" else Join(Entries(ps), '&')
  }

  /** One `key=value` segment, cut at its first `=`; a segment without
      `=` is a key with the empty value. */
  function ParseEntry(e: string): (p: (string, string))
    ensures '&' !in e ==> Clean(p)
    decreases |e|
  {
    if |e| == 0 then ("", "")
    else if e[0] == '=' then ("", e[1..])
    else
      var rest := ParseEntry(e[1..]);
      ([e[0]] + rest.0, rest.1)
  }

  /** The pairs of the non-empty segments, in order. */
  function ParseEntries(es: seq<string>): (ps: Pairs)
    ensures (forall i :: 0 <= i < |es| ==> '&' !in es[i]) ==> AllClean(ps)
    decreases |es|
  {
    if |es| == 0 then []
    else if es[0] == "" then ParseEntries(es[1..])
    else [ParseEntry(es[0])] + ParseEntries(es[1..])
  }

  /** Reads `key=value&key=value` text back into pairs. Every pair read
      needs no escaping, except that its key may be empty. */
  function Parse(s: string): (ps: Pairs)
    ensures AllClean(ps)
  {
    ParseEntries(Split(s, '&'))
  }

  lemma {:induction false} ParseEntryOfEntry(p: (string, string))
    requires '=' !in p.0
    ensures ParseEntry(Entry(p)) == p
    decreases |p.0|
  {
    if |p.0| == 0 {
      assert Entry(p)[1..] == p.1;
    } else {
      ParseEntryOfEntry((p.0[1..], p.1));
      assert Entry(p)[1..] == Entry((p.0[1..], p.1));
      assert p.0 == [p.0[0]] + p.0[1..];
    }
  }

  lemma {:induction false} ParseEntriesOfEntries(ps: Pairs)
    requires Safe(ps)
    ensures ParseEntries(Entries(ps)) == ps
    decreases |ps|
  {
    if |ps| > 0 {
      var es := Entries(ps);
      assert es[0] == Entry(ps[0]) && |es[0]| > 0;
      assert es[1..] == Entries(ps[1..]);
      SafeCons(ps);
      ParseEntryOfEntry(ps[0]);
      ParseEntriesOfEntries(ps[1..]);
      assert ps == [ps[0]] + ps[1..];
    }
  }

  /** The text form loses nothing: reading back formatted safe pairs gives
      the same pairs in the same order. */
  lemma ParseFormat(ps: Pairs)
    requires Safe(ps)
    ensures Parse(Format(ps)) == ps
  {
    if |ps| > 0 {
      var es := Entries(ps);
      EntriesHaveNoAmpersand(ps);
      SplitJoin(es, '&');
      ParseEntriesOfEntries(ps);
    }
  }

  lemma {:induction false} EntriesHaveNoAmpersand(ps: Pairs)
    requires Safe(ps)
    ensures forall i :: 0 <= i < |ps| ==> '&' !in Entries(ps)[i]
    decreases |ps|
  {
    if |ps| > 0 {
      EntriesHaveNoAmpersand(ps[1..]);
      forall i | 0 < i < |ps|
        ensures '&' !in Entries(ps)[i]
      {
        assert Entries(ps)[i] == Entries(ps[1..])[i - 1];
      }
    }
  }

  /** A value found in safe pairs is itself safe. */
  lemma {:induction false} GetOfSafe(ps: Pairs, k: string)
    requires Safe(ps)
    requires Get(ps, k).Some?
    ensures Clean((k, Get(ps, k).value)) && k != ""
    decreases |ps|
  {
    if ps[0].0 != k {
      GetOfSafe(ps[1..], k);
    }
  }
}

=== FILE: renderingparameters.dfy ===
/** The rendering-parameters dialog (`RenderingParameters`): it turns a
    rendering's attributes and parameters into the field list the dialog
    edits, and writes the edited fields back.

    Fields named `placeholder`, `data source`, `caching`, `personalization`
    and `tests` (in any letter case) are backed by rendering attributes.
    Every other field is backed by a parameter. Parameters that no template
    field declares travel together in one "Additional Parameters" field.
 */
module RenderingParameters {
  import opened Optional
  import opened Text
  import opened QueryString
  import opened Definitions
  import Caching

  const AdditionalParametersName := "Additional Parameters"

  const PersonalizationWarning :=
    "There are personalization conditions defined for this control. Changing control properties may effect them."

  const TestWarning :=
    "There is a multivariate test set up for this control. Changing control properties may effect the test."

  /** A field of the rendering's parameters template, as its standard
      values item shows it. */
  datatype TemplateField = TemplateField(name: string, standardValue: string, isParameterField: bool)

  /** The template's fields, in their sorted order. */
  type Template = seq<TemplateField>

  /** One field of the dialog. */
  datatype FieldDescriptor = FieldDescriptor(name: string, value: string, containsStandardValue: bool)

  /** The user's view options for the Personalization and Tests sections. */
  datatype ViewOptions = ViewOptions(showPersonalizationSection: bool, showTestLabSection: bool)

  /** Where a field's value lives, chosen by its lower-cased name. */
  datatype Route =
    | PlaceholderRoute
    | DataSourceRoute
    | CachingRoute
    | PersonalizationRoute
    | TestsRoute
    | AdditionalRoute
    | CustomRoute
  {
    /** The value lives in an attribute of the rendering. */
    predicate IsAttribute() {
      !AdditionalRoute? && !CustomRoute?
    }
  }

  function RouteOf(name: string): Route {
    if LowerIs(name, "placeholder") then PlaceholderRoute
    else if LowerIs(name, "data source") then DataSourceRoute
    else if LowerIs(name, "caching") then CachingRoute
    else if LowerIs(name, "personalization") then PersonalizationRoute
    else if LowerIs(name, "tests") then TestsRoute
    else if LowerIs(name, "additional parameters") then AdditionalRoute
    else CustomRoute
  }

  lemma AdditionalParametersRoute()
    ensures RouteOf(AdditionalParametersName) == AdditionalRoute
  {
    var n := AdditionalParametersName;
    assert |n| == 21;
    assert !LowerIs(n, "placeholder") && !LowerIs(n, "data source") && !LowerIs(n, "caching");
    assert !LowerIs(n, "personalization") && !LowerIs(n, "tests");
  }

  // ---------------------------------------------------------------------
  // Reading

  /** `GetParameters`: the parsed parameters without the empty key. Each
      non-empty key that the text holds is kept, with its value when no key
      is repeated. */
  function GetParameters(r: Rendering): (ps: Pairs)
    ensures Safe(ps) && UniqueKeys(ps)
    ensures Get(ps, "").None?
    ensures forall k :: k != "" ==>
      (Get(ps, k).Some? <==> Get(Parse(r.parameters.GetOr("")), k).Some?)
    ensures UniqueKeys(Parse(r.parameters.GetOr(""))) ==>
      forall k :: k != "" ==> Get(ps, k) == Get(Parse(r.parameters.GetOr("")), k)
  {
    var parsed := Parse(r.parameters.GetOr(""));
    var kept := NonEmptyKeys(parsed);
    Merge([], kept)
  }

  /** `GetValue`: attribute-backed fields read the rendering, with an
      absent attribute read as the empty string, and never the parameters;
      any other field reads the parameter of exactly its name, and is
      absent when there is none. */
  function GetValue(name: string, r: Rendering, ps: Pairs): (v: Option<string>)
    ensures RouteOf(name).IsAttribute() ==> v.Some?
    ensures RouteOf(name) == PlaceholderRoute ==> v == Some(r.placeholder.GetOr(""))
    ensures RouteOf(name) == DataSourceRoute ==> v == Some(r.datasource.GetOr(""))
    ensures RouteOf(name) == CachingRoute ==> v == Some(Caching.GetCaching(r.caching))
    ensures RouteOf(name) == PersonalizationRoute ==> v == Some(r.conditions.GetOr(""))
    ensures RouteOf(name) == TestsRoute ==> v == Some(r.multiVariateTest.GetOr(""))
    ensures !RouteOf(name).IsAttribute() ==> v == Get(ps, name)
  {
    match RouteOf(name)
    case PlaceholderRoute => Some(r.placeholder.GetOr(""))
    case DataSourceRoute => Some(r.datasource.GetOr(""))
    case CachingRoute => Some(Caching.GetCaching(r.caching))
    case PersonalizationRoute => Some(r.conditions.GetOr(""))
    case TestsRoute => Some(r.multiVariateTest.GetOr(""))
    case _ => Get(ps, name)
  }

  /** Attribute-backed fields are read case-insensitively and do not
      depend on the parameters at all. */
  lemma AttributeFieldsIgnoreCaseAndParameters(a: string, b: string, r: Rendering, ps: Pairs, qs: Pairs)
    requires Lower(a) == Lower(b)
    requires RouteOf(a).IsAttribute()
    ensures GetValue(a, r, ps) == GetValue(b, r, qs)
  {
    SameLowerAgrees(a, b, "placeholder");
    SameLowerAgrees(a, b, "data source");
    SameLowerAgrees(a, b, "caching");
    SameLowerAgrees(a, b, "personalization");
    SameLowerAgrees(a, b, "tests");
    SameLowerAgrees(a, b, "additional parameters");
    assert RouteOf(a) == RouteOf(b);
  }

  lemma SameLowerAgrees(a: string, b: string, lower: string)
    requires Lower(a) == Lower(b)
    ensures LowerIs(a, lower) <==> LowerIs(b, lower)
  {
    assert |a| == |b|;
    forall i | 0 <= i < |a|
      ensures LowerChar(a[i]) == LowerChar(b[i])
    {
      assert Lower(a)[i] == Lower(b)[i];
    }
  }

  /** Whether the template's standard values item has a field `name`. */
  predicate HasField(t: Template, name: string) {
    exists f :: f in t && f.name == name
  }

  /** The standard value of the first template field named `name`, and the
      empty string when there is none. */
  function StandardValue(t: Template, name: string): string
    decreases |t|
  {
    if |t| == 0 then ""
    else if t[0].name == name then t[0].standardValue
    else StandardValue(t[1..], name)
  }

  /** No two template fields share a name. */
  ghost predicate UniqueNames(t: Template) {
    forall i, j :: 0 <= i < j < |t| ==> t[i].name != t[j].name
  }

  /** The template fields the dialog shows: not "Additional Parameters",
      Personalization and Tests only when the user's view shows them, and
      only parameter fields. */
  predicate Accepted(f: TemplateField, opts: ViewOptions) {
    && f.name != AdditionalParametersName
    && (f.name != "Personalization" || opts.showPersonalizationSection)
    && (f.name != "Tests" || opts.showTestLabSection)
    && f.isParameterField
  }

  /** The dialog field for one template field: its current value, or the
      standard value flagged as such when it has none. */
  function Describe(f: TemplateField, r: Rendering, ps: Pairs): (d: FieldDescriptor)
    ensures d.name == f.name
    ensures d.containsStandardValue <==> GetValue(f.name, r, ps).None?
    ensures d.containsStandardValue ==> d.value == f.standardValue
    ensures !d.containsStandardValue ==> Some(d.value) == GetValue(f.name, r, ps)
  {
    var v := GetValue(f.name, r, ps);
    FieldDescriptor(f.name, v.GetOr(f.standardValue), v.None?)
  }

  /** The accepted template fields, in template order. */
  function AcceptedFields(fs: seq<TemplateField>, opts: ViewOptions): (a: seq<TemplateField>)
    ensures forall f :: f in a <==> f in fs && Accepted(f, opts)
    ensures |a| <= |fs|
    decreases |fs|
  {
    if |fs| == 0 then []
    else (if Accepted(fs[0], opts) then [fs[0]] else []) + AcceptedFields(fs[1..], opts)
  }

  /** The dialog fields of the accepted template fields, in template
      order: one per accepted field and nothing else. */
  function Descriptors(r: Rendering, ps: Pairs, fs: seq<TemplateField>, opts: ViewOptions): (ds: seq<FieldDescriptor>)
    ensures |ds| == |AcceptedFields(fs, opts)|
    ensures forall j :: 0 <= j < |ds| ==> ds[j] == Describe(AcceptedFields(fs, opts)[j], r, ps)
    ensures forall d :: d in ds ==> d.name != AdditionalParametersName
    decreases |fs|
  {
    if |fs| == 0 then []
    else
      var rest := Descriptors(r, ps, fs[1..], opts);
      assert forall f :: f in fs <==> f == fs[0] || f in fs[1..];
      if Accepted(fs[0], opts) then
        assert AcceptedFields(fs, opts) == [fs[0]] + AcceptedFields(fs[1..], opts);
        [Describe(fs[0], r, ps)] + rest
      else
        assert AcceptedFields(fs, opts) == AcceptedFields(fs[1..], opts);
        rest
  }

  /** Every dialog field describes an accepted template field, and every
      accepted template field is described. */
  lemma DescriptorsMembership(r: Rendering, ps: Pairs, fs: seq<TemplateField>, opts: ViewOptions)
    ensures var ds := Descriptors(r, ps, fs, opts);
      && (forall d :: d in ds ==> exists f :: f in fs && Accepted(f, opts) && d == Describe(f, r, ps))
      && (forall f :: f in fs && Accepted(f, opts) ==> Describe(f, r, ps) in ds)
  {
    var ds := Descriptors(r, ps, fs, opts);
    var a := AcceptedFields(fs, opts);
    forall d | d in ds
      ensures exists f :: f in fs && Accepted(f, opts) && d == Describe(f, r, ps)
    {
      var j :| 0 <= j < |ds| && ds[j] == d;
      assert a[j] in a;
    }
    forall f | f in fs && Accepted(f, opts)
      ensures Describe(f, r, ps) in ds
    {
      var j :| 0 <= j < |a| && a[j] == f;
      assert ds[j] == Describe(f, r, ps);
    }
  }

  /** The names of the accepted fields. */
  ghost function AcceptedNames(fs: seq<TemplateField>, opts: ViewOptions): set<string> {
    set f | f in fs && Accepted(f, opts) :: f.name
  }

  /** The parameters no accepted field claims, in their original order. */
  function Leftover(ps: Pairs, fs: seq<TemplateField>, opts: ViewOptions): (left: Pairs)
    ensures forall k :: Get(left, k) == if k in AcceptedNames(fs, opts) then None else Get(ps, k)
    ensures UniqueKeys(ps) ==> UniqueKeys(left)
    ensures Safe(ps) ==> Safe(left)
    decreases |fs|
  {
    if |fs| == 0 then ps
    else
      assert forall f :: f in fs <==> f == fs[0] || f in fs[1..];
      var after := if Accepted(fs[0], opts) then Delete(ps, fs[0].name) else ps;
      Leftover(after, fs[1..], opts)
  }

  /** `GetAdditionalParameters`: the "Additional Parameters" field, holding
      the left-over parameters as text, is added at the end exactly when
      the template has that field or something is left over. */
  function AddAdditionalParameters(ds: seq<FieldDescriptor>, t: Template, left: Pairs): (fields: seq<FieldDescriptor>)
    ensures |fields| == |ds| || |fields| == |ds| + 1
    ensures fields[..|ds|] == ds
    ensures |fields| == |ds| + 1 <==> HasField(t, AdditionalParametersName) || |left| > 0
    ensures |fields| == |ds| + 1 ==>
      fields[|ds|] == FieldDescriptor(AdditionalParametersName, Format(left), false)
  {
    if !HasField(t, AdditionalParametersName) && |left| == 0 then ds
    else ds + [FieldDescriptor(AdditionalParametersName, Format(left), false)]
  }

  /** `GetFields`: no fields without a parameters template; otherwise one
      field per accepted template field followed, when needed, by the
      "Additional Parameters" field. */
  function GetFields(r: Rendering, ps: Pairs, template: Option<Template>, opts: ViewOptions): (fields: seq<FieldDescriptor>)
    ensures template.None? ==> fields == []
    ensures template.Some? ==>
      var ds := Descriptors(r, ps, template.value, opts);
      var left := Leftover(ps, template.value, opts);
      && (|fields| == |ds| || |fields| == |ds| + 1)
      && fields[..|ds|] == ds
      && (|fields| == |ds| + 1 <==> HasField(template.value, AdditionalParametersName) || |left| > 0)
  {
    match template
    case None => []
    case Some(t) =>
      AddAdditionalParameters(Descriptors(r, ps, t, opts), t, Leftover(ps, t, opts))
  }

  /** The "Additional Parameters" text holds exactly the left-over
      parameters. */
  lemma AdditionalParametersCarryLeftover(r: Rendering, t: Template, opts: ViewOptions)
    ensures var ps := GetParameters(r);
      var fields := GetFields(r, ps, Some(t), opts);
      var n := |Descriptors(r, ps, t, opts)|;
      |fields| == n + 1 ==>
        && fields[n].name == AdditionalParametersName
        && Parse(fields[n].value) == Leftover(ps, t, opts)
  {
    var ps := GetParameters(r);
    ParseFormat(Leftover(ps, t, opts));
  }

  // ---------------------------------------------------------------------
  // Writing

  /** A rendering being written back, and the parameters collected so far. */
  datatype Edit = Edit(rendering: Rendering, out: Pairs)

  /** `SetValue`: attribute-backed fields write the rendering and never
      the parameters; "additional parameters" merges its pairs into the
      parameters; any other field sets its parameter unless it holds its
      standard value. The caching field fails on a malformed value; `tests`
      stores the id of the item the value names, or the value itself. */
  function SetValue(r: Rendering, out: Pairs, name: string, value: string, containsStandardValue: bool,
                    itemIdOf: string -> Option<string>): (e: Result<Edit>)
    ensures RouteOf(name) != CachingRoute ==> e.Success?
    ensures RouteOf(name) == CachingRoute ==> (e.Success? <==> Caching.Accepts(value))
    ensures e.Success? ==>
      && e.value.rendering.itemId == r.itemId
      && e.value.rendering.parameters == r.parameters
      && e.value.rendering.uniqueId == r.uniqueId
    ensures e.Success? && RouteOf(name).IsAttribute() ==> e.value.out == out
    ensures e.Success? && !RouteOf(name).IsAttribute() ==> e.value.rendering == r
    ensures RouteOf(name) == PlaceholderRoute ==> e.value.rendering == r.(placeholder := Some(value))
    ensures RouteOf(name) == DataSourceRoute ==> e.value.rendering == r.(datasource := Some(value))
    ensures RouteOf(name) == PersonalizationRoute ==> e.value.rendering == r.(conditions := Some(value))
    ensures RouteOf(name) == TestsRoute ==>
      e.value.rendering == r.(multiVariateTest := Some(itemIdOf(value).GetOr(value)))
    ensures RouteOf(name) == CachingRoute && e.Success? ==>
      e.value.rendering == r.(caching := Caching.SetCaching(r.caching, value).value)
    ensures RouteOf(name) == AdditionalRoute ==> e.value.out == Merge(out, Parse(value))
    ensures RouteOf(name) == CustomRoute && containsStandardValue ==> e == Success(Edit(r, out))
    ensures RouteOf(name) == CustomRoute && !containsStandardValue ==>
      && Get(e.value.out, name) == Some(value)
      && forall k :: k != name ==> Get(e.value.out, k) == Get(out, k)
  {
    match RouteOf(name)
    case PlaceholderRoute => Success(Edit(r.(placeholder := Some(value)), out))
    case DataSourceRoute => Success(Edit(r.(datasource := Some(value)), out))
    case CachingRoute =>
      (match Caching.SetCaching(r.caching, value)
       case Failure(msg) => Failure(msg)
       case Success(c) => Success(Edit(r.(caching := c), out)))
    case PersonalizationRoute => Success(Edit(r.(conditions := Some(value)), out))
    case TestsRoute =>
      var test := match itemIdOf(value) case Some(id) => id case None => value;
      Success(Edit(r.(multiVariateTest := Some(test)), out))
    case AdditionalRoute => Success(Edit(r, Merge(out, Parse(value))))
    case CustomRoute =>
      if containsStandardValue then Success(Edit(r, out)) else Success(Edit(r, Set(out, name, value)))
  }

  /** Reading a field right after writing it gives the written value back:
      for the placeholder, data source and personalization attributes, for
      a well-formed caching value, for a test value that names no item, and
      for a parameter written without the standard-value flag. */
  lemma SetValueThenGetValue(r: Rendering, out: Pairs, name: string, value: string,
                             itemIdOf: string -> Option<string>)
    requires RouteOf(name) == CachingRoute ==> Caching.WellFormed(value)
    requires RouteOf(name) == TestsRoute ==> itemIdOf(value).None?
    requires RouteOf(name) != AdditionalRoute
    ensures var e := SetValue(r, out, name, value, false, itemIdOf);
      e.Success? && GetValue(name, e.value.rendering, e.value.out) == Some(value)
  {
    if RouteOf(name) == CachingRoute {
      Caching.SetThenGet(r.caching, value);
    }
  }

  /** Writing one field leaves the value read for every field of another
      route unchanged, and for a parameter of another name. */
  lemma SetValueLeavesOtherFields(r: Rendering, out: Pairs, name: string, value: string, flag: bool,
                                  other: string, itemIdOf: string -> Option<string>)
    requires RouteOf(name) != AdditionalRoute
    requires RouteOf(other) != RouteOf(name) || RouteOf(other) == CustomRoute
    requires other != name
    requires SetValue(r, out, name, value, flag, itemIdOf).Success?
    ensures var e := SetValue(r, out, name, value, flag, itemIdOf).value;
      GetValue(other, e.rendering, e.out) == GetValue(other, r, out)
  {
  }

  /** Writes every field in order; the first failure stops the save. A
      field keeps its standard value only when it was flagged so and its
      value still equals the template's standard value. */
  function SaveFields(r: Rendering, out: Pairs, t: Template, ds: seq<FieldDescriptor>,
                      itemIdOf: string -> Option<string>): (e: Result<Edit>)
    ensures (forall i :: 0 <= i < |ds| && RouteOf(ds[i].name) == CachingRoute ==> Caching.Accepts(ds[i].value))
      <==> e.Success?
    ensures e.Success? ==> e.value.rendering.itemId == r.itemId && e.value.rendering.parameters == r.parameters
    decreases |ds|
  {
    if |ds| == 0 then Success(Edit(r, out))
    else
      var d := ds[0];
      var useStandard := d.containsStandardValue && d.value == StandardValue(t, d.name);
      match SetValue(r, out, d.name, d.value, useStandard, itemIdOf)
      case Failure(msg) => Failure(msg)
      case Success(e) =>
        SaveFields(e.rendering, e.out, t, ds[1..], itemIdOf)
  }

  /** `Save`: without a parameters template nothing is written; otherwise
      every field is written and the rendering's parameters are replaced
      as a whole by the collected ones. It fails only on a malformed
      caching value. */
  function Save(r: Rendering, template: Option<Template>, ds: seq<FieldDescriptor>,
                itemIdOf: string -> Option<string>): (s: Result<Rendering>)
    ensures template.None? ==> s == Success(r)
    ensures template.Some? &&
      (forall i :: 0 <= i < |ds| && RouteOf(ds[i].name) == CachingRoute ==> Caching.Accepts(ds[i].value))
      ==> s.Success?
    ensures s.Success? ==> s.value.itemId == r.itemId
    ensures template.Some? ==>
      var e := SaveFields(r, [], template.value, ds, itemIdOf);
      && (s.Success? <==> e.Success?)
      && (e.Success? ==> s.value == e.value.rendering.(parameters := Some(Format(e.value.out))))
  {
    match template
    case None => Success(r)
    case Some(t) =>
      match SaveFields(r, [], t, ds, itemIdOf)
      case Failure(msg) => Failure(msg)
      case Success(e) => Success(e.rendering.(parameters := Some(Format(e.out))))
  }

  /** The standard-value rule end to end: a single parameter field is
      stored after a save unless it was flagged as standard and still
      holds the standard value. */
  lemma SaveSuppressesStandardValue(r: Rendering, t: Template, name: string, value: string, flag: bool,
                                    itemIdOf: string -> Option<string>)
    requires RouteOf(name) == CustomRoute
    requires name != "" && Clean((name, value))
    ensures var s := Save(r, Some(t), [FieldDescriptor(name, value, flag)], itemIdOf);
      && s.Success?
      && GetParameters(s.value) ==
         (if flag && value == StandardValue(t, name) then [] else [(name, value)])
  {
    var d := FieldDescriptor(name, value, flag);
    var useStandard := flag && value == StandardValue(t, name);
    var out: Pairs := if useStandard then [] else [(name, value)];
    var e := SetValue(r, [], name, value, useStandard, itemIdOf).value;
    assert e.out == out;
    assert SaveFields(r, [], t, [d], itemIdOf) == SaveFields(e.rendering, e.out, t, [], itemIdOf);
    var saved := Save(r, Some(t), [d], itemIdOf).value;
    assert saved.parameters == Some(Format(out));
    assert Safe(out);
    ParseFormat(out);
    assert NonEmptyKeys(out) == out;
    assert Merge([], out) == out;
  }

  /** The attribute twin of `SaveSuppressesStandardValue`: a single
      attribute-backed field is stored into the rendering by a save, with
      or without the standard-value flag, and reads back as written. A
      caching value must be well formed, and a test value must name no
      item (otherwise the item's id is stored). */
  lemma SaveWritesAttribute(r: Rendering, t: Template, name: string, value: string, flag: bool,
                            itemIdOf: string -> Option<string>)
    requires RouteOf(name).IsAttribute()
    requires RouteOf(name) == CachingRoute ==> Caching.WellFormed(value)
    requires RouteOf(name) == TestsRoute ==> itemIdOf(value).None?
    ensures var s := Save(r, Some(t), [FieldDescriptor(name, value, flag)], itemIdOf);
      && s.Success?
      && GetValue(name, s.value, []) == Some(value)
      && s.value.parameters == Some(Format([]))
  {
    var d := FieldDescriptor(name, value, flag);
    var useStandard := flag && value == StandardValue(t, name);
    SetValueThenGetValue(r, [], name, value, itemIdOf);
    assert SetValue(r, [], name, value, useStandard, itemIdOf) == SetValue(r, [], name, value, false, itemIdOf);
    var e := SetValue(r, [], name, value, useStandard, itemIdOf).value;
    SaveFieldsCons(r, [], t, d, [], itemIdOf);
    assert [d] + [] == [d];
  }

  // ---------------------------------------------------------------------
  // Round trip

  /** The names of accepted fields whose value lives in the parameters. */
  ghost function CustomNames(fs: seq<TemplateField>, opts: ViewOptions): set<string> {
    set f | f in fs && Accepted(f, opts) && RouteOf(f.name) == CustomRoute :: f.name
  }

  /** The names of accepted fields whose value lives in an attribute. */
  ghost function ShadowedNames(fs: seq<TemplateField>, opts: ViewOptions): set<string> {
    set f | f in fs && Accepted(f, opts) && RouteOf(f.name).IsAttribute() :: f.name
  }

  lemma {:induction false} StandardValueOfUniqueName(t: Template, i: int)
    requires UniqueNames(t)
    requires 0 <= i < |t|
    ensures StandardValue(t, t[i].name) == t[i].standardValue
    decreases i
  {
    if i > 0 {
      assert t[0].name != t[i].name;
      assert UniqueNames(t[1..]) by {
        forall a, b | 0 <= a < b < |t[1..]|
          ensures t[1..][a].name != t[1..][b].name
        {
          assert t[1..][a] == t[a + 1] && t[1..][b] == t[b + 1];
        }
      }
      StandardValueOfUniqueName(t[1..], i - 1);
    }
  }

  /** Writing descriptors that are followed by more descriptors: the first
      group's result feeds the second. */
  lemma {:induction false} SaveFieldsAppend(r: Rendering, out: Pairs, t: Template, ds1: seq<FieldDescriptor>,
                                            ds2: seq<FieldDescriptor>, itemIdOf: string -> Option<string>)
    ensures SaveFields(r, out, t, ds1 + ds2, itemIdOf) ==
      match SaveFields(r, out, t, ds1, itemIdOf)
      case Failure(msg) => Failure(msg)
      case Success(e) => SaveFields(e.rendering, e.out, t, ds2, itemIdOf)
    decreases |ds1|
  {
    if |ds1| > 0 {
      assert (ds1 + ds2)[0] == ds1[0];
      assert (ds1 + ds2)[1..] == ds1[1..] + ds2;
      var d := ds1[0];
      var useStandard := d.containsStandardValue && d.value == StandardValue(t, d.name);
      match SetValue(r, out, d.name, d.value, useStandard, itemIdOf)
      case Failure(msg) =>
      case Success(e) =>
        SaveFieldsAppend(e.rendering, e.out, t, ds1[1..], ds2, itemIdOf);
    } else {
      assert ds1 + ds2 == ds2;
    }
  }

  /** Writing back one accepted field as `Describe` showed it succeeds,
      and sets its parameter exactly when it is a custom field that `ps`
      holds. */
  lemma SaveOneDescriptor(r0: Rendering, r: Rendering, out: Pairs, ps: Pairs, t: Template,
                          f: TemplateField, itemIdOf: string -> Option<string>)
    requires Safe(ps) && Safe(out) && UniqueKeys(out)
    requires StandardValue(t, f.name) == f.standardValue
    requires RouteOf(f.name) != AdditionalRoute
    ensures var d := Describe(f, r0, ps);
      var e := SetValue(r, out, d.name, d.value,
                        d.containsStandardValue && d.value == StandardValue(t, d.name), itemIdOf);
      && e.Success?
      && Safe(e.value.out) && UniqueKeys(e.value.out)
      && forall k :: Get(e.value.out, k) ==
           if k == f.name && RouteOf(f.name) == CustomRoute && Get(ps, k).Some? then Get(ps, k) else Get(out, k)
  {
    var d := Describe(f, r0, ps);
    var useStandard := d.containsStandardValue && d.value == StandardValue(t, d.name);
    var route := RouteOf(f.name);
    if route == CachingRoute {
      Caching.SetThenGet(r.caching, d.value);
    } else if route == CustomRoute {
      if Get(ps, f.name).Some? {
        GetOfSafe(ps, f.name);
        assert !useStandard;
      } else {
        assert useStandard;
      }
    }
  }

  lemma CustomNamesCons(fs: seq<TemplateField>, opts: ViewOptions)
    requires |fs| > 0
    ensures CustomNames(fs, opts) ==
      (if Accepted(fs[0], opts) && RouteOf(fs[0].name) == CustomRoute then {fs[0].name} else {})
      + CustomNames(fs[1..], opts)
  {
    assert forall g :: g in fs <==> g == fs[0] || g in fs[1..];
  }

  /** Writing a non-empty list of fields writes its first field, then the
      rest from the state that left. */
  lemma SaveFieldsCons(r: Rendering, out: Pairs, t: Template, d: FieldDescriptor, rest: seq<FieldDescriptor>,
                       itemIdOf: string -> Option<string>)
    requires SetValue(r, out, d.name, d.value,
                      d.containsStandardValue && d.value == StandardValue(t, d.name), itemIdOf).Success?
    ensures var e := SetValue(r, out, d.name, d.value,
                              d.containsStandardValue && d.value == StandardValue(t, d.name), itemIdOf).value;
      SaveFields(r, out, t, [d] + rest, itemIdOf) == SaveFields(e.rendering, e.out, t, rest, itemIdOf)
  {
    assert ([d] + rest)[0] == d && ([d] + rest)[1..] == rest;
  }

  /** Writing back the descriptors built from parameters `ps` succeeds and
      sets exactly the parameters of the custom fields that `ps` holds. */
  lemma {:induction false} SaveDescriptors(r0: Rendering, r: Rendering, out: Pairs, ps: Pairs, t: Template,
                                           fs: seq<TemplateField>, opts: ViewOptions,
                                           itemIdOf: string -> Option<string>)
    requires Safe(ps) && Safe(out) && UniqueKeys(out)
    requires forall f :: f in fs ==> StandardValue(t, f.name) == f.standardValue
    requires forall f :: f in fs && Accepted(f, opts) ==> RouteOf(f.name) != AdditionalRoute
    ensures var s := SaveFields(r, out, t, Descriptors(r0, ps, fs, opts), itemIdOf);
      && s.Success?
      && Safe(s.value.out) && UniqueKeys(s.value.out)
      && forall k :: Get(s.value.out, k) ==
           if k in CustomNames(fs, opts) && Get(ps, k).Some? then Get(ps, k) else Get(out, k)
    decreases |fs|
  {
    if |fs| > 0 {
      var f := fs[0];
      var rest := Descriptors(r0, ps, fs[1..], opts);
      CustomNamesCons(fs, opts);
      assert forall g :: g in fs[1..] ==> g in fs;
      if !Accepted(f, opts) {
        assert Descriptors(r0, ps, fs, opts) == rest;
        SaveDescriptors(r0, r, out, ps, t, fs[1..], opts, itemIdOf);
      } else {
        var d := Describe(f, r0, ps);
        assert Descriptors(r0, ps, fs, opts) == [d] + rest;
        SaveOneDescriptor(r0, r, out, ps, t, f, itemIdOf);
        var useStandard := d.containsStandardValue && d.value == StandardValue(t, d.name);
        var e := SetValue(r, out, d.name, d.value, useStandard, itemIdOf).value;
        SaveFieldsCons(r, out, t, d, rest, itemIdOf);
        SaveDescriptors(r0, e.rendering, e.out, ps, t, fs[1..], opts, itemIdOf);
      }
    }
  }

  /** Reading back formatted safe parameters gives their values back. */
  lemma GetParametersOfFormat(r: Rendering, out: Pairs)
    requires Safe(out) && UniqueKeys(out)
    ensures forall k :: Get(GetParameters(r.(parameters := Some(Format(out)))), k) == Get(out, k)
  {
    ParseFormat(out);
    assert NonEmptyKeys(out) == out;
  }

  /** Writing the "Additional Parameters" field alone merges the pairs its
      text holds into the collected parameters. */
  lemma SaveAdditionalParameters(r: Rendering, out: Pairs, t: Template, left: Pairs,
                                 itemIdOf: string -> Option<string>)
    requires Safe(left)
    ensures SaveFields(r, out, t, [FieldDescriptor(AdditionalParametersName, Format(left), false)], itemIdOf)
      == Success(Edit(r, Merge(out, left)))
  {
    var d := FieldDescriptor(AdditionalParametersName, Format(left), false);
    AdditionalParametersRoute();
    ParseFormat(left);
    SaveFieldsCons(r, out, t, d, [], itemIdOf);
    assert [d] + [] == [d];
  }

  /** Writing back the fields `GetFields` built: the custom fields that the
      parameters hold come first, then the left-over parameters on top. */
  lemma SaveFieldsOfGetFields(r: Rendering, t: Template, opts: ViewOptions, itemIdOf: string -> Option<string>)
    requires UniqueNames(t)
    requires forall i :: 0 <= i < |t| && Accepted(t[i], opts) ==> RouteOf(t[i].name) != AdditionalRoute
    ensures var ps := GetParameters(r);
      var s := SaveFields(r, [], t, GetFields(r, ps, Some(t), opts), itemIdOf);
      var left := Leftover(ps, t, opts);
      && s.Success?
      && Safe(s.value.out) && UniqueKeys(s.value.out)
      && forall k :: Get(s.value.out, k) ==
           if Get(left, k).Some? then Get(left, k)
           else if k in CustomNames(t, opts) && Get(ps, k).Some? then Get(ps, k)
           else None
  {
    var ps := GetParameters(r);
    var ds := Descriptors(r, ps, t, opts);
    var left := Leftover(ps, t, opts);
    var fields := GetFields(r, ps, Some(t), opts);
    forall f | f in t
      ensures StandardValue(t, f.name) == f.standardValue
    {
      var i :| 0 <= i < |t| && t[i] == f;
      StandardValueOfUniqueName(t, i);
    }
    SaveDescriptors(r, r, [], ps, t, t, opts, itemIdOf);
    var e1 := SaveFields(r, [], t, ds, itemIdOf).value;
    if |fields| == |ds| {
      assert fields == ds;
      assert left == [];
    } else {
      var add := FieldDescriptor(AdditionalParametersName, Format(left), false);
      assert fields == ds + [add];
      SaveFieldsAppend(r, [], t, ds, [add], itemIdOf);
      SaveAdditionalParameters(e1.rendering, e1.out, t, left, itemIdOf);
    }
  }

  /** With no accepted field routed to "additional parameters", every
      accepted name is either a custom name or a shadowed one, never both. */
  lemma AcceptedNamesPartition(t: Template, opts: ViewOptions)
    requires forall i :: 0 <= i < |t| && Accepted(t[i], opts) ==> RouteOf(t[i].name) != AdditionalRoute
    ensures forall k :: k in AcceptedNames(t, opts) <==> k in CustomNames(t, opts) || k in ShadowedNames(t, opts)
    ensures forall k :: !(k in CustomNames(t, opts) && k in ShadowedNames(t, opts))
  {
    forall k | k in AcceptedNames(t, opts)
      ensures k in CustomNames(t, opts) || k in ShadowedNames(t, opts)
    {
      var f :| f in t && Accepted(f, opts) && f.name == k;
      var i :| 0 <= i < |t| && t[i] == f;
    }
  }

  /** Opening the dialog and saving it unchanged keeps every parameter:
      a save of the fields `GetFields` built gives back the same parameter
      values, except that a parameter named like an accepted attribute-backed
      field was read from the attribute and is dropped. */
  lemma SaveAfterGetFieldsKeepsParameters(r: Rendering, t: Template, opts: ViewOptions,
                                          itemIdOf: string -> Option<string>)
    requires UniqueNames(t)
    requires forall i :: 0 <= i < |t| && Accepted(t[i], opts) ==> RouteOf(t[i].name) != AdditionalRoute
    ensures var ps := GetParameters(r);
      var s := Save(r, Some(t), GetFields(r, ps, Some(t), opts), itemIdOf);
      && s.Success?
      && forall k :: Get(GetParameters(s.value), k) ==
           if k in ShadowedNames(t, opts) then None else Get(ps, k)
  {
    var ps := GetParameters(r);
    var fields := GetFields(r, ps, Some(t), opts);
    var left := Leftover(ps, t, opts);
    SaveFieldsOfGetFields(r, t, opts, itemIdOf);
    var e := SaveFields(r, [], t, fields, itemIdOf).value;
    var saved := Save(r, Some(t), fields, itemIdOf).value;
    assert saved == e.rendering.(parameters := Some(Format(e.out)));
    GetParametersOfFormat(e.rendering, e.out);
    AcceptedNamesPartition(t, opts);
  }

  /** Why the round trip excludes fields routed to "additional
      parameters": a template field spelled in another letter case, such as
      `additional parameters`, passes the exact-name filter of `GetFields`
      but is written back by the case-insensitive merge branch, so the
      parameter it showed (here with an empty value) is lost on save. */
  lemma CaseVariantAdditionalFieldDropsParameter(r: Rendering, name: string, opts: ViewOptions,
                                                 itemIdOf: string -> Option<string>)
    requires RouteOf(name) == AdditionalRoute && name != AdditionalParametersName
    ensures Get(GetParameters(r), name) == Some("") ==>
      var t := [TemplateField(name, "", true)];
      var s := Save(r, Some(t), GetFields(r, GetParameters(r), Some(t), opts), itemIdOf);
      && s.Success?
      && Get(GetParameters(s.value), name) == None
  {
    if Get(GetParameters(r), name) == Some("") {
      var t := [TemplateField(name, "", true)];
      var ps := GetParameters(r);
      var d := FieldDescriptor(name, "", false);
      var left := Delete(ps, name);
      var fields := GetFields(r, ps, Some(t), opts);
      CaseVariantFields(r, name, opts);
      assert Split("", '&') == [""];
      assert Parse("") == [];
      assert SetValue(r, [], d.name, d.value, false, itemIdOf) == Success(Edit(r, []));
      SaveFieldsCons(r, [], t, d, fields[1..], itemIdOf);
      assert fields == [d] + fields[1..];
      if |fields| == 1 {
        assert SaveFields(r, [], t, fields, itemIdOf) == Success(Edit(r, []));
        GetParametersOfFormat(r, []);
      } else {
        SaveAdditionalParameters(r, [], t, left, itemIdOf);
        var out := Merge([], left);
        assert Get(out, name) == None;
        GetParametersOfFormat(r, out);
      }
    }
  }

  /** A parameter field whose name routes to "additional parameters" but
      is not spelled exactly so is shown by the dialog. */
  lemma RouteAccepted(f: TemplateField, opts: ViewOptions)
    requires RouteOf(f.name) == AdditionalRoute && f.name != AdditionalParametersName
    requires f.isParameterField
    ensures Accepted(f, opts)
  {
    assert |f.name| == 21;
  }

  /** The fields the dialog builds for that template when the parameter
      holds the empty string: the case-variant field with that value, then
      the other parameters. */
  lemma CaseVariantFields(r: Rendering, name: string, opts: ViewOptions)
    requires RouteOf(name) == AdditionalRoute && name != AdditionalParametersName
    ensures Get(GetParameters(r), name) == Some("") ==>
      var t := [TemplateField(name, "", true)];
      var ps := GetParameters(r);
      var left := Delete(ps, name);
      GetFields(r, ps, Some(t), opts) ==
        [FieldDescriptor(name, "", false)] +
        (if |left| == 0 then [] else [FieldDescriptor(AdditionalParametersName, Format(left), false)])
  {
    var t := [TemplateField(name, "", true)];
    var ps := GetParameters(r);
    RouteAccepted(t[0], opts);
    if Get(ps, name) == Some("") {
      assert Describe(t[0], r, ps) == FieldDescriptor(name, "", false);
      assert Descriptors(r, ps, t, opts) == [FieldDescriptor(name, "", false)];
      assert t[1..] == [];
      assert Leftover(ps, t, opts) == Leftover(Delete(ps, name), [], opts) == Delete(ps, name);
      assert !HasField(t, AdditionalParametersName);
    }
  }

  // ---------------------------------------------------------------------
  // The dialog

  /** The content database as the dialog sees it. */
  datatype Services = Services(
    templateOf: string -> Option<Template>,     // standard values item of a rendering item's parameters template
    itemIdOf: string -> Option<string>,         // id of the item a path or id names
    itemUriOf: string -> Option<string>,        // URI of the item an id names
    contentItemUri: Option<string>,             // URI of the item being edited, if any
    isPersonalized: Rendering -> bool,          // whether personalization rules apply to a rendering
    parseFields: string -> seq<FieldDescriptor>)  // the field list a dialog result carries

  /** The dialog that `Show` opens: its fields and its extra parameters. */
  datatype Dialog = Dialog(fields: seq<FieldDescriptor>, parameters: map<string, string>)

  /** What `Show` answers: whether the edit is finished, the device after
      it, and the dialog it opened, if any. */
  datatype ShowReply = ShowReply(done: bool, device: Device, dialog: Option<Dialog>)

  /** The parameters template of a rendering, looked up through its item. */
  function StandardValuesOf(r: Rendering, svc: Services): Option<Template> {
    if r.itemId == "" then None else svc.templateOf(r.itemId)
  }

  /** `SetCustomParameters`: the rendering and content item when they
      exist, and a warning when the rendering is personalized or under a
      test, the test warning taking precedence. */
  function CustomParameters(r: Rendering, svc: Services): (m: map<string, string>)
    ensures "warningtext" in m <==> svc.isPersonalized(r) || r.multiVariateTest.GetOr("") != ""
    ensures r.multiVariateTest.GetOr("") != "" ==> m["warningtext"] == TestWarning
    ensures r.multiVariateTest.GetOr("") == "" && svc.isPersonalized(r) ==>
      m["warningtext"] == PersonalizationWarning
    ensures "rendering" in m <==> r.itemId != "" && svc.itemUriOf(r.itemId).Some?
    ensures "rendering" in m ==> m["rendering"] == svc.itemUriOf(r.itemId).value
    ensures "contentitem" in m <==> svc.contentItemUri.Some?
    ensures "contentitem" in m ==> m["contentitem"] == svc.contentItemUri.value
    ensures m.Keys <= {"rendering", "contentitem", "warningtext"}
  {
    var withItem: map<string, string> :=
      if r.itemId != "" && svc.itemUriOf(r.itemId).Some? then map["rendering" := svc.itemUriOf(r.itemId).value]
      else map[];
    var withContext :=
      if svc.contentItemUri.Some? then withItem["contentitem" := svc.contentItemUri.value] else withItem;
    var personalized :=
      if svc.isPersonalized(r) then withContext["warningtext" := PersonalizationWarning] else withContext;
    if r.multiVariateTest.GetOr("") != "" then personalized["warningtext" := TestWarning] else personalized
  }

  /** The rendering names an item but there is no content item: both
      phases look the rendering item up in the content item's language, so
      the dialog cannot run. */
  predicate MissingContentItem(r: Rendering, svc: Services) {
    r.itemId != "" && svc.contentItemUri.None?
  }

  const NullReference := "Object reference not set to an instance of an object."

  /** `Show`, the dialog's two phases. The first call opens the dialog on
      the selected rendering, and is done at once when nothing is selected.
      The post-back saves the dialog's result into the selected rendering,
      and changes nothing when the dialog was closed without one. Either
      phase fails when the rendering names an item and there is no content
      item. */
  function Show(device: Device, selectedIndex: int, args: Args, svc: Services, opts: ViewOptions): (s: Result<ShowReply>)
    requires args.Begin? ==> selectedIndex < |device.renderings|
    requires args.PostBack? && args.result.Some? ==> 0 <= selectedIndex < |device.renderings|
    ensures args == PostBack(None) ==> s == Success(ShowReply(true, device, None))
    ensures args.Begin? && selectedIndex < 0 ==> s == Success(ShowReply(true, device, None))
    ensures args.Begin? && selectedIndex >= 0 ==>
      var r := device.renderings[selectedIndex];
      && (s.Success? <==> !MissingContentItem(r, svc))
      && (s.Success? ==>
            && !s.value.done && s.value.device == device && s.value.dialog.Some?
            && s.value.dialog.value.fields == GetFields(r, GetParameters(r), StandardValuesOf(r, svc), opts)
            && s.value.dialog.value.parameters == CustomParameters(r, svc))
    ensures s.Success? ==> (s.value.done <==> s.value.dialog.None?)
    ensures s.Success? ==>
      && s.value.device.layout == device.layout
      && s.value.device.placeholders == device.placeholders
      && |s.value.device.renderings| == |device.renderings|
      && forall j :: 0 <= j < |device.renderings| && j != selectedIndex ==>
           s.value.device.renderings[j] == device.renderings[j]
    ensures args.PostBack? && args.result.Some? ==>
      var r := device.renderings[selectedIndex];
      var saved := Save(r, StandardValuesOf(r, svc), svc.parseFields(args.result.value), svc.itemIdOf);
      && (s.Success? <==> !MissingContentItem(r, svc) && saved.Success?)
      && (s.Success? ==> s.value.done && s.value.device.renderings[selectedIndex] == saved.value)
  {
    match args
    case PostBack(result) =>
      if result.None? then Success(ShowReply(true, device, None))
      else
        var r := device.renderings[selectedIndex];
        if MissingContentItem(r, svc) then Failure(NullReference)
        else
          (match Save(r, StandardValuesOf(r, svc), svc.parseFields(result.value), svc.itemIdOf)
           case Failure(msg) => Failure(msg)
           case Success(saved) =>
             Success(ShowReply(true, device.(renderings := device.renderings[selectedIndex := saved]), None)))
    case Begin =>
      if selectedIndex < 0 then Success(ShowReply(true, device, None))
      else
        var r := device.renderings[selectedIndex];
        if MissingContentItem(r, svc) then Failure(NullReference)
        else
          var fields := GetFields(r, GetParameters(r), StandardValuesOf(r, svc), opts);
          Success(ShowReply(false, device, Some(Dialog(fields, CustomParameters(r, svc)))))
  }

  /** Both phases together: when the dialog posts back exactly the fields
      it was opened with, the save succeeds and the selected rendering
      keeps every parameter value, except a parameter named like an
      accepted attribute-backed field, which the dialog showed from the
      attribute instead. */
  lemma ShowThenPostBackKeepsParameters(device: Device, i: int, result: string, svc: Services,
                                        opts: ViewOptions, t: Template)
    requires 0 <= i < |device.renderings|
    requires StandardValuesOf(device.renderings[i], svc) == Some(t)
    requires UniqueNames(t)
    requires forall j :: 0 <= j < |t| && Accepted(t[j], opts) ==> RouteOf(t[j].name) != AdditionalRoute
    ensures svc.contentItemUri.None? ==> Show(device, i, PostBack(Some(result)), svc, opts).Failure?
    ensures svc.contentItemUri.Some? &&
            svc.parseFields(result) == Show(device, i, Begin, svc, opts).value.dialog.value.fields ==>
      var s := Show(device, i, PostBack(Some(result)), svc, opts);
      && s.Success? && s.value.done
      && forall k :: Get(GetParameters(s.value.device.renderings[i]), k) ==
           if k in ShadowedNames(t, opts) then None else Get(GetParameters(device.renderings[i]), k)
  {
    var r := device.renderings[i];
    SaveAfterGetFieldsKeepsParameters(r, t, opts, svc.itemIdOf);
  }
}

=== FILE: sequences.dfy ===
/** Positional edits of a sequence, as `ArrayList.RemoveAt` and
    `ArrayList.Insert` perform them. */
module Sequences {

  /** The sequence without its element at `i`; later elements move down. */
  function RemoveAt<T>(s: seq<T>, i: int): (r: seq<T>)
    requires 0 <= i < |s|
    ensures |r| == |s| - 1
    ensures forall j :: 0 <= j < i ==> r[j] == s[j]
    ensures forall j :: i <= j < |r| ==> r[j] == s[j + 1]
  {
    s[..i] + s[i + 1..]
  }

  /** The sequence with `x` placed at `i`; later elements move up. */
  function InsertAt<T>(s: seq<T>, i: int, x: T): (r: seq<T>)
    requires 0 <= i <= |s|
    ensures |r| == |s| + 1
    ensures r[i] == x
    ensures forall j :: 0 <= j < i ==> r[j] == s[j]
    ensures forall j :: i < j < |r| ==> r[j] == s[j - 1]
  {
    s[..i] + [x] + s[i..]
  }

  /** Removing an element takes exactly that element out of the multiset. */
  lemma RemoveAtMultiset<T>(s: seq<T>, i: int)
    requires 0 <= i < |s|
    ensures multiset(RemoveAt(s, i)) + multiset{s[i]} == multiset(s)
  {
    assert s == s[..i] + [s[i]] + s[i + 1..];
  }

  /** Inserting an element adds exactly that element to the multiset. */
  lemma InsertAtMultiset<T>(s: seq<T>, i: int, x: T)
    requires 0 <= i <= |s|
    ensures multiset(InsertAt(s, i, x)) == multiset(s) + multiset{x}
  {
    assert s == s[..i] + s[i..];
  }
}

=== FILE: text.dfy ===
/** String utilities with the semantics of the .NET string methods the
    dialog code calls: `Split(char)`, `Replace(string, string)` and
    `ToLowerInvariant()` (restricted to ASCII letters).
 */
module Text {

  /** Splits `s` at every occurrence of `sep`, as `String.Split(char)`:
      `k` separators give `k + 1` parts, and no part contains `sep`. */
  function Split(s: string, sep: char): (parts: seq<string>)
    ensures |parts| >= 1
    ensures forall i :: 0 <= i < |parts| ==> sep !in parts[i]
    decreases |s|
  {
    if |s| == 0 then [""]
    else
      var rest := Split(s[1..], sep);
      if s[0] == sep then [""] + rest
      else [[s[0]] + rest[0]] + rest[1..]
  }

  /** Concatenates `parts` with `sep` between consecutive parts. */
  function Join(parts: seq<string>, sep: char): string
    requires |parts| >= 1
  {
    if |parts| == 1 then parts[0] else parts[0] + [sep] + Join(parts[1..], sep)
  }

  /** Joining the parts of a split gives back the original string. */
  lemma {:induction false} JoinSplit(s: string, sep: char)
    ensures Join(Split(s, sep), sep) == s
    decreases |s|
  {
    if |s| > 0 {
      var rest := Split(s[1..], sep);
      JoinSplit(s[1..], sep);
      if s[0] == sep {
        assert Split(s, sep) == [""] + rest;
        assert ([""] + rest)[1..] == rest;
        assert s == [sep] + s[1..];
      } else {
        var parts := Split(s, sep);
        assert parts == [[s[0]] + rest[0]] + rest[1..];
        assert parts[1..] == rest[1..];
        if |rest| == 1 {
          assert Join(rest, sep) == rest[0];
        } else {
          assert Join(rest, sep) == rest[0] + [sep] + Join(rest[1..], sep);
        }
        assert s == [s[0]] + s[1..];
      }
    }
  }

  /** A string without the separator splits into itself alone. */
  lemma {:induction false} SplitWithoutSeparator(a: string, sep: char)
    requires sep !in a
    ensures Split(a, sep) == [a]
    decreases |a|
  {
    if |a| > 0 {
      SplitWithoutSeparator(a[1..], sep);
      assert a == [a[0]] + a[1..];
    }
  }

  /** A separator after a separator-free prefix ends the first part. */
  lemma {:induction false} SplitAfterPrefix(a: string, sep: char, b: string)
    requires sep !in a
    ensures Split(a + [sep] + b, sep) == [a] + Split(b, sep)
    decreases |a|
  {
    var s := a + [sep] + b;
    if |a| == 0 {
      assert s[1..] == b;
    } else {
      assert s[1..] == a[1..] + [sep] + b;
      SplitAfterPrefix(a[1..], sep, b);
      assert a == [a[0]] + a[1..];
    }
  }

  /** Splitting a join of separator-free parts gives back the parts. */
  lemma {:induction false} SplitJoin(parts: seq<string>, sep: char)
    requires |parts| >= 1
    requires forall i :: 0 <= i < |parts| ==> sep !in parts[i]
    ensures Split(Join(parts, sep), sep) == parts
    decreases |parts|
  {
    if |parts| == 1 {
      SplitWithoutSeparator(parts[0], sep);
    } else {
      SplitJoin(parts[1..], sep);
      SplitAfterPrefix(parts[0], sep, Join(parts[1..], sep));
      assert parts == [parts[0]] + parts[1..];
    }
  }

  /** `Char.ToLowerInvariant` on the ASCII range. */
  function LowerChar(c: char): char {
    if 'A' <= c <= 'Z' then (c as int + 32) as char else c
  }

  /** `String.ToLowerInvariant` on the ASCII range. */
  function Lower(s: string): (r: string)
    ensures |r| == |s|
    ensures forall i :: 0 <= i < |s| ==> r[i] == LowerChar(s[i])
    decreases |s|
  {
    if |s| == 0 then "" else [LowerChar(s[0])] + Lower(s[1..])
  }

  /** `Lower(s) == lower`, compared character by character (see
      `LowerIsLower`), which avoids unfolding `Lower` on a literal. */
  predicate LowerIs(s: string, lower: string) {
    |s| == |lower| && forall i :: 0 <= i < |s| ==> LowerChar(s[i]) == lower[i]
  }

  lemma LowerIsLower(s: string, lower: string)
    ensures LowerIs(s, lower) <==> Lower(s) == lower
  {
    if LowerIs(s, lower) {
      assert forall i :: 0 <= i < |s| ==> Lower(s)[i] == lower[i];
    }
  }

  /** `String.Replace(pat, rep)`: every non-overlapping occurrence of `pat`,
      scanning from the left, is replaced by `rep`. */
  function ReplaceAll(s: string, pat: string, rep: string): (r: string)
    requires |pat| > 0
    ensures pat[0] !in s ==> r == s
    ensures |rep| <= |pat| ==> |r| <= |s|
    decreases |s|
  {
    if |s| == 0 then ""
    else if |pat| <= |s| && s[..|pat|] == pat then rep + ReplaceAll(s[|pat|..], pat, rep)
    else [s[0]] + ReplaceAll(s[1..], pat, rep)
  }
}
